=== FILE: README.md ===
# fb_alloc in Dafny

A model of `fb_alloc<T, nof_elements, alignment>` (fb_alloc.h), a
fixed-block pool allocator for STL containers. A handle rounds `sizeof(T)`
up to a multiple of `alignment`. It takes memory in chunks of
`nof_elements` blocks plus one trailing pointer word, and threads the
blocks of each chunk into an intrusive free list (the pool). It also keeps
the chunks it took in its own registry, linked through the trailing words.
Single objects are served from the pool and returned to it. Chunks are
never handed back to the heap: `clean` retires them to a global cache that
is shared by every handle of the instantiation. That cache is a stack
linked through each chunk's first word, with two counters. A handle built
by the converting constructor from a handle with the same rounded element
size shares that handle's reference count and allocation count; with a
different size it gets counters of its own (fb_alloc.h:176-197).

The model is a state machine. Memory is a map from addresses (`nat`, 0 is
null) to link words; an address the map does not hold reads as 0. A handle
is a value holding its own `pool_head_` and `chunk_head_` and the
addresses of its two counter cells. The `World` holds the memory, the
counter cells and the global cache. Each operation is a function from the
old state to a `Result` with the new state. A failed `assert` of the
debug build is `Err(AssertionFailure)`, a null or deleted counter read is
`Err(Undefined)` and a refused throwing `new` (the default constructor's
counters, a chunk in `grow`) is `Err(BadAlloc)`; the converting
constructor's non-throwing `new` instead leaves the counter null
(fb_alloc.h:187-196). Each answer the
heap gives is a parameter: `Some(address)`, or `None` when it refuses.
Walks over the registry take the list they walk as a ghost argument.
A `World` stands for one instantiation `fb_alloc<T, nof_elements,
alignment>`: its cache is that instantiation's static cache
(fb_alloc.h:91-103). The source handle of a converting constructor is of
another type `U`, and in the program it has a cache of its own; the
lemmas about shared handles let only one of the two handles reach the
cache.

Modules:

- `Wrappers`: `Option`, `Result` and the three kinds of failure.
- `Memory`: link-word memory, null-terminated chains, the blocks of a chunk.
- `ElementSize`: rounding `sizeof(T)` up to the alignment.
- `Threading`: linking a chunk's blocks into a list, both the plain loop
  and the unrolled loop the header compiles.
- `ChunkCache`: the global chunk stack and its counters.
- `FbAlloc`: handles, counters and every member operation.
- `PoolInvariant`: the invariant of a single unshared handle and the
  operations that preserve it.
- `Sharing`: handles that share counters, and copying a handle.

Only the counters are shared: the converting constructor copies
`pool_head_` and `chunk_head_` by value (fb_alloc.h:178-179), so two
sharing handles own separate snapshots of the same lists.
`Sharing.SharedHandlesHandOutTwice` shows that both can then hand out the
same block. `Sharing.SharedHandleMissesGrowth` shows that a block of a
chunk one handle grew later fails the other handle's `check`.

## Model

| member | source | states |
|---|---|---|
| ElementSize.ComputeElementSize | fb_alloc.h:122-128 | the rounding loop ends at the least multiple of `alignment` that is at least `sizeof(T)`, which is below `sizeof(T) + alignment` |
| ElementSize.NextMultipleIsRounded | fb_alloc.h:162-168 | the closed-form rounding used by both constructors is that least multiple |
| ElementSize.ComputedSizeIsNextMultiple | fb_alloc.h:122-128 | whatever the loop returns equals the closed form, so both constructors agree on the element size |
| ElementSize.RoundedUnique | fb_alloc.h:122-128 | the least aligned size at or above `sizeof(T)` is unique |
| Memory.ZeroFill | fb_alloc.h:330-331 | a fresh chunk reads as null at every word inside it, and nothing outside it changes |
| Memory.ChainDistinct | fb_alloc.h:252-259 | a null-terminated list visits no node twice, so the free list, the registry and the cache hold no duplicate |
| Memory.ChainFrame | fb_alloc.h:294-300 | a list stays intact when none of its link words is written |
| Threading.LinkChunk | fb_alloc.h:252-259 | the plain linking loop makes the chunk's blocks `start + i*e`, in order, a null-terminated list, and writes no word outside the blocks |
| Threading.PlainLinksChain | fb_alloc.h:252-259 | the links the plain loop writes form the list of the chunk's blocks in address order |
| Threading.LinkChunkUnrolled | fb_alloc.h:261-285 | with two or more blocks, the unrolled loop writes exactly the links of the plain loop; with one block, it writes the links of a nine-block chunk, which puts `start + 2e` into the word right after the block |
| Threading.DuffSplit | fb_alloc.h:262-264 | the `switch` label is below 8; for `nof_elements >= 2` the first pass and the full passes of the unrolled loop add up to `nof_elements - 1` statements; for one block the pass counter and the entry label are both 0, so `case 0` still runs a whole pass of eight |
| ChunkCache.AllocateChunk | fb_alloc.h:327-343 | a chunk handed out is never null, and chunks in use (allocated minus free) grow by exactly one |
| ChunkCache.AllocateChunkPops | fb_alloc.h:335-343 | with a non-empty cache, the top chunk is popped; memory is unchanged and the cache invariant holds for the rest |
| ChunkCache.AllocateChunkFresh | fb_alloc.h:327-333 | with an empty cache, the heap's chunk is used, zero-filled and counted as allocated; without one the call fails |
| ChunkCache.DeallocateChunk | fb_alloc.h:360-367 | the chunk becomes the top, linked to the old top through its first word; the call fails exactly when the free count would exceed the allocated count |
| ChunkCache.DeallocateChunkPushes | fb_alloc.h:360-367 | pushing a chunk from outside the cache keeps the cache invariant, with the chunk on top |
| ChunkCache.PushThenPop | fb_alloc.h:327-367 | a chunk retired to the cache is the next chunk handed out, and the cache head and both cache counters return to their earlier values |
| FbAlloc.Construct | fb_alloc.h:105-142 | the default constructor fails its assertions when `nof_elements` or `alignment` is zero, and otherwise fails only when a counter cannot be allocated; on success the element size is rounded, both heads are null, the reference count is 1 and the allocation count 0 |
| FbAlloc.ConvertCtor | fb_alloc.h:147-198 | a zero `nof_elements` or `alignment` fails the assertions; with an equal rounded size the new handle is a copy of the source handle and the shared reference count goes up by one; otherwise the handle starts empty with counters {1, 0}, each only if its cell was granted |
| FbAlloc.Grow | fb_alloc.h:232-289 | fails on a null counter or when no chunk is available; otherwise the new chunk heads the registry, its trailing word holds the old registry head, and the pool is the list of its blocks |
| FbAlloc.CleanFrom | fb_alloc.h:294-300 | draining a registry list into the cache adds its length to the cache's free count and fails only if the free count would exceed the allocated count |
| FbAlloc.Clean | fb_alloc.h:291-303 | `clean` retires every chunk of the handle's own registry to the cache and nulls both heads |
| FbAlloc.CheckFrom | fb_alloc.h:308-318 | the registry walk answers true exactly when some chunk `c` of the list has `c <= p <= c + (n-1)*e` |
| FbAlloc.Check | fb_alloc.h:305-319 | `check(p)` is true exactly when `p` lies in one of the handle's own chunks, up to the start of its last block |
| FbAlloc.Allocate1 | fb_alloc.h:374-389 | returns the old pool head, growing first when the pool is empty; the pool head moves to that block's link, the allocation count goes up by exactly one and stays positive, no other counter cell changes, and without growth memory, cache and registry are untouched |
| FbAlloc.Deallocate1 | fb_alloc.h:395-409 | a pointer outside the handle's chunks fails the check; otherwise the block is pushed on the pool and the allocation count drops by one without going negative, and no other counter cell changes |
| FbAlloc.Destroy | fb_alloc.h:200-214 | a null counter does nothing; above 1 the count is decremented; at 1 the registry is retired to the cache and exactly the handle's two counters are deleted, every other cell keeping its value; a deleted or non-positive count fails |
| FbAlloc.Release | fb_alloc.h:216-230 | like the destructor, but at the last reference both heads are nulled and the counters are kept, reset to 1 and 0, and no other cell changes |
| PoolInvariant.ConstructEstablishes | fb_alloc.h:105-142 | a new handle whose rounded element size is at least a pointer satisfies the pool invariant with no chunk, no free block and no block in use |
| PoolInvariant.PopPreserves | fb_alloc.h:378-388 | with a non-empty pool, `allocate(1)` returns the head of the free list, which was not in use, and keeps the invariant |
| PoolInvariant.GrowSucceeds | fb_alloc.h:238-243 | on an empty pool `grow` fails exactly when both the cache and the heap have no chunk |
| PoolInvariant.GrowPreserves | fb_alloc.h:243-288 | `grow` registers one more chunk, from the cache top or else the heap, and makes all its blocks free, keeping `nof_allocs + free blocks == nof_elements * chunks` |
| PoolInvariant.AllocatePreserves | fb_alloc.h:374-389 | `allocate(1)` keeps the invariant, returns a block not in use, and fails only when pool, cache and heap are all empty |
| PoolInvariant.AllocationsDistinct | fb_alloc.h:382-385 | two successive allocations return different blocks |
| PoolInvariant.DeallocatePreserves | fb_alloc.h:395-409 | returning a block in use passes the check, puts the block at the head of the pool and keeps the invariant |
| PoolInvariant.CleanFromPushes | fb_alloc.h:294-300 | draining the registry pushes each chunk on the cache in registry order and keeps the cache invariant |
| PoolInvariant.DestroyRetiresAll | fb_alloc.h:203-213 | destroying the only handle moves its whole registry to the cache, which then holds every chunk ever taken from the heap, and deletes both counters |
| PoolInvariant.ReleaseRestarts | fb_alloc.h:219-228 | releasing the only handle moves its registry to the cache and leaves a handle that satisfies the invariant with an empty pool |
| PoolInvariant.ReuseAfterDestroy | fb_alloc.h:336-343 | after the last handle is gone, a new handle of the same instantiation (same rounded element size) takes its first chunk from the cache instead of the heap, whatever the heap answers |
| Sharing.ObserversAfterConstruct | fb_alloc.h:448-497 | `max_size()` and `elsize()` return the rounded size, `chunksize()` is `elsize*nof_elements + sizeof(char*)` and room for `nof_elements` objects plus the link, `refcount()` is 1 and `nof_allocs()` is 0 |
| Sharing.ObserversAfterConvert | fb_alloc.h:448-497 | after the converting constructor, `max_size()`, `elsize()` and `chunksize()` report the new handle's rounded size; with an equal size `refcount()` and `nof_allocs()` read the source's cells, so both handles report the same counts, one reference more than before; otherwise a counter whose cell was refused reads 0 (fb_alloc.h:482-486, 492-496) |
| Sharing.DeallocThenAllocate | fb_alloc.h:376-409 | `deallocate(p, 1)` followed by `allocate(1)` returns `p` and restores the handle and both counters |
| Sharing.SharedHandleMissesGrowth | fb_alloc.h:176-184 | a handle that shares counters with `a` does not see a chunk `a` grows later: returning a block of it fails the check |
| Sharing.SharedHandlesHandOutTwice | fb_alloc.h:176-184 | two handles that share a non-empty pool by value both hand out its head block |
| Sharing.ImplicitCopyDestroysTwice | fb_alloc.h:200-214 | with the generated copy, the second destructor reads a counter the first one deleted |
| Sharing.CountedCopyDestroysOnce | fb_alloc.h:176-184 | a same-type copy that counts its reference lets both destructors run: the first decrements, the second retires the pool and deletes the counters |

## Left out

- The bulk path of `allocate`/`deallocate` for `n != 1` (fb_alloc.h:391, 412): it only calls the global `operator new` and `operator delete`.
- `construct`, `destroy` and `address` (fb_alloc.h:416-446): placement new, an explicit destructor call and taking an address involve no pool state.
- The observers `nof_elmts()` and `alignmnt()`: they return template arguments, which are the fields of `Config`.
- `dump` (fb_alloc.h:499-503): stream output.
- The `CHUNKS_RETURNED_TO_MALLOC` configuration (fb_alloc.h:324-325, 350-351): chunks then go straight to and from the heap.
- Object contents and byte layout: memory holds only link words, each one word at the block's address.
- PoolInvariant.Inv, PoolInvariant.ConstructEstablishes, FbAlloc.Grow, FbAlloc.Allocate1, FbAlloc.Deallocate1: these require the rounded element size to be at least `sizeof(char*)`, and so do the lemmas that call them. With smaller blocks (a `char` with alignment 1, say) the program's pointer-sized writes overlap: each link written while threading a chunk (fb_alloc.h:256, 267-281) overwrites part of the previous block's link, the final null (fb_alloc.h:285) overwrites part of the trailing registry word, and `deallocate` (fb_alloc.h:405) overwrites the start of the neighbouring block. Memory here holds whole link words, so the model promises nothing about that case.
- Threading.LinkChunk, Threading.PlainLinksChain, Threading.LinkChunkUnrolled: each link is one whole word at its block's address, so for a stride `e` below `sizeof(char*)` these describe word-addressed memory, not the program's overlapping writes; `grow` uses them only for blocks at least a pointer wide.
- Integer widths: `size_t` and `int` are unbounded. The guard `elsize_ < elsize_ + alignment_` of the rounding loop is therefore always true, and the counters cannot overflow.
- The state after an error is not modelled. For instance, `allocate_chunk` bumps `nof_allocated_chunks_` before a `new` that may throw.
- The default constructor's `new int` throws through a `throw()` specification, which terminates the program; the model reports `Err(BadAlloc)`.
- The static cache exists once per template instantiation; the model has one cache per world, shared by all handles in it, so a world models one instantiation. Handles of another element type, including the source of a converting constructor, use another cache in the program.
- Thread safety: the class has none, and neither does the model.
- FbAlloc.Check, FbAlloc.CheckFrom, FbAlloc.Clean, FbAlloc.CleanFrom, FbAlloc.Deallocate1, FbAlloc.Destroy and FbAlloc.Release require the registry to be a null-terminated list, given as a ghost argument; all but the two `Check` walks and `Deallocate1` also require that no chunk's trailing link word is another chunk's first word (`NoAlias` in `Handle.Registry`). On a cyclic registry `check` (fb_alloc.h:310-317) walks forever, while `clean` counts one more free chunk on every pass (fb_alloc.h:363) and so stops at the assertion at fb_alloc.h:367; the model covers neither. Where a trailing word is another chunk's first word, retiring that chunk rewrites the registry link with the cache head (fb_alloc.h:361), which the model does not cover either.
- FbAlloc.CleanFrom: success is characterised only when the cache's free count is at most its allocated count on entry.
- FbAlloc.Clean: as for `CleanFrom`.
- FbAlloc.Destroy: as for `CleanFrom`.
- FbAlloc.Release: as for `CleanFrom`. The reset reference count is stated to be 1 only when the two counter cells differ.
- FbAlloc.Grow, PoolInvariant.GrowPreserves: the blocks of a new chunk are linked as by the plain loop (fb_alloc.h:252-259). The compiled unrolled loop (fb_alloc.h:261-285) writes the same links when `nof_elements >= 2` (`Threading.LinkChunkUnrolled`). For `nof_elements == 1` it overwrites the trailing registry word and writes past the chunk, so the compiled `grow` does not keep the invariant; that case is the first row under Findings, and the lemmas built on `Grow` (`AllocatePreserves`, `AllocationsDistinct`, `ReuseAfterDestroy`) inherit the same limit.
- FbAlloc.Allocate1: success is guaranteed only for a non-empty pool. The grow case is covered by `PoolInvariant.AllocatePreserves`.

## Findings

| source | as written | input that shows it | evidently intended | confidence | as-written member | corrected member |
|---|---|---|---|---|---|---|
| fb_alloc.h:261-285 | the unrolled linking loop always runs at least one whole pass of eight links; for `nof_elements == 1` it has `nn == 0` and `case 0` | `nof_elements = 1`, any element size `e` of at least `sizeof(char*)`: links are written at `start`..`start + 7e` and a null at `start + 8e`, so the word `start + e`, which holds the previous registry head, is overwritten with `start + 2e` | link no block and null the only block, as the plain loop at fb_alloc.h:252-259 does, so `clean` and `check` still find the older chunks | high, not executed | Threading.LinkChunkUnrolled | Threading.LinkChunk |
| fb_alloc.h:144-148 | the "copy constructor" is a constructor template, and a template is never a copy constructor; a same-type copy uses the generated member-wise copy, which does not increment `*refcount_` | build a handle, copy it, destroy the copy, then destroy the original: the first destructor cleans and deletes the counters, and the second decrements a deleted counter | the same-type copy shares the counters and counts the reference, as the `elsize_ == fba.elsize_` branch does | medium, not executed | Sharing.ImplicitCopyDestroysTwice | Sharing.CountedCopyDestroysOnce |

=== FILE: chunk_cache.dfy ===
/** The global chunk cache of one instantiation of the allocator
    (fb_alloc.h:91-103 and 321-370): a stack of retired chunks linked
    through each chunk's first word, with a count of the chunks ever taken
    from the heap and a count of the chunks currently on the stack. */
module ChunkCache {
  import opened Wrappers
  import opened Memory

  /** `global_chunk_head_`, `nof_allocated_chunks_`, `nof_free_chunks_`. */
  datatype Cache = Cache(head: Addr, nofAllocated: int, nofFree: int)

  /** The cache as the program starts: empty, nothing allocated. */
  const EmptyCache := Cache(Null, 0, 0)

  /** `allocate_chunk`: pop the top chunk, or, when the stack is empty, count
      one more chunk and take a zero-filled chunk of `chunkSize` words from
      the heap, whose answer is `heap` (None when it throws `bad_alloc`). */
  function AllocateChunk(mem: Mem, cache: Cache, chunkSize: nat, heap: Option<Addr>): (r: Result<(Mem, Cache, Addr)>)
    requires heap.Some? ==> heap.value != Null
    ensures r.Ok? ==> r.value.2 != Null
    ensures r.Ok? ==> r.value.1.nofAllocated - r.value.1.nofFree == cache.nofAllocated - cache.nofFree + 1
  {
    if cache.head == Null then
      match heap
      case None => Err(BadAlloc)
      case Some(c) =>
        Ok((ZeroFill(mem, c, chunkSize), cache.(nofAllocated := cache.nofAllocated + 1), c))
    else
      var nofFree := cache.nofFree - 1;
      if nofFree < 0 then Err(AssertionFailure)
      else Ok((mem, Cache(Read(mem, cache.head), cache.nofAllocated, nofFree), cache.head))
  }

  /** `deallocate_chunk`: push the chunk `c`, linking it to the old top
      through its first word. */
  function DeallocateChunk(mem: Mem, cache: Cache, c: Addr): (r: Result<(Mem, Cache)>)
    ensures r.Ok? ==> r.value.1.head == c && Read(r.value.0, c) == cache.head
    ensures r.Ok? <==> cache.nofFree + 1 <= cache.nofAllocated
  {
    var nofFree := cache.nofFree + 1;
    if nofFree <= cache.nofAllocated then Ok((mem[c := cache.head], cache.(head := c, nofFree := nofFree)))
    else Err(AssertionFailure)
  }

  /** The cache holds exactly the chunks `xs`, top first, and `outside`
      further chunks taken from the heap are held by pools:
      `0 <= nof_free_chunks_ == |xs| <= nof_allocated_chunks_`. */
  ghost predicate CacheInv(mem: Mem, cache: Cache, xs: seq<Addr>, outside: nat) {
    && Chain(mem, cache.head, 0, xs)
    && cache.nofFree == |xs|
    && cache.nofAllocated == |xs| + outside
  }

  /** A non-empty cache gives away its top chunk; the rest stays stacked
      and the assertion of fb_alloc.h:339 holds. */
  lemma AllocateChunkPops(mem: Mem, cache: Cache, chunkSize: nat, heap: Option<Addr>, xs: seq<Addr>, outside: nat)
    requires heap.Some? ==> heap.value != Null
    requires CacheInv(mem, cache, xs, outside) && xs != []
    ensures AllocateChunk(mem, cache, chunkSize, heap).Ok?
    ensures var (mem', cache', c) := AllocateChunk(mem, cache, chunkSize, heap).value;
      && c == xs[0] && mem' == mem
      && CacheInv(mem', cache', xs[1..], outside + 1)
  {
  }

  /** An empty cache asks the heap: a fresh chunk on success, `bad_alloc`
      otherwise. */
  lemma AllocateChunkFresh(mem: Mem, cache: Cache, chunkSize: nat, heap: Option<Addr>, outside: nat)
    requires heap.Some? ==> heap.value != Null
    requires CacheInv(mem, cache, [], outside)
    ensures AllocateChunk(mem, cache, chunkSize, heap).Ok? <==> heap.Some?
    ensures heap.Some? ==>
      var (mem', cache', c) := AllocateChunk(mem, cache, chunkSize, heap).value;
      && c == heap.value && mem' == ZeroFill(mem, c, chunkSize)
      && CacheInv(mem', cache', [], outside + 1)
  {
  }

  /** Retiring a chunk held outside the cache pushes it on top; the
      assertion of fb_alloc.h:367 holds. */
  lemma DeallocateChunkPushes(mem: Mem, cache: Cache, c: Addr, xs: seq<Addr>, outside: nat)
    requires CacheInv(mem, cache, xs, outside) && outside >= 1
    requires c != Null && c !in xs
    ensures DeallocateChunk(mem, cache, c).Ok?
    ensures var (mem', cache') := DeallocateChunk(mem, cache, c).value;
      CacheInv(mem', cache', [c] + xs, outside - 1)
  {
    var mem' := mem[c := cache.head];
    ChainFrame(mem, mem', cache.head, 0, xs);
    assert ([c] + xs)[1..] == xs;
  }

  /** Popping right after pushing gives back the same chunk and the same
      cache (LIFO). */
  lemma PushThenPop(mem: Mem, cache: Cache, chunkSize: nat, heap: Option<Addr>, c: Addr)
    requires heap.Some? ==> heap.value != Null
    requires c != Null && cache.nofFree >= 0
    requires DeallocateChunk(mem, cache, c).Ok?
    ensures var (mem', cache') := DeallocateChunk(mem, cache, c).value;
      AllocateChunk(mem', cache', chunkSize, heap) == Ok((mem', cache, c))
  {
  }
}

=== FILE: element_size.dfy ===
/** The element size of a pool: the size of `T` rounded up to the first
    multiple of the configured alignment (fb_alloc.h, both constructors). */
module ElementSize {

  predicate Aligned(k: nat, alignment: nat)
    requires alignment > 0
  {
    k % alignment == 0
  }

  /** `r` is the least multiple of `alignment` that is at least `size`. */
  ghost predicate IsRounded(r: nat, size: nat, alignment: nat)
    requires alignment > 0
  {
    && size <= r
    && Aligned(r, alignment)
    && forall k :: size <= k < r ==> !Aligned(k, alignment)
  }

  /** Closed-form reference for the rounded size. */
  function NextMultiple(size: nat, alignment: nat): (r: nat)
    requires alignment > 0
    ensures size <= r < size + alignment
    ensures Aligned(r, alignment)
  {
    var q := size / alignment;
    if size % alignment == 0 then size
    else
      assert size == q * alignment + size % alignment;
      assert size + (alignment - size % alignment) == (q + 1) * alignment;
      MultipleIsAligned(q + 1, alignment);
      size + (alignment - size % alignment)
  }

  lemma MultipleIsAligned(q: nat, alignment: nat)
    requires alignment > 0
    ensures Aligned(q * alignment, alignment)
  {
    var n := q * alignment;
    var d := n / alignment;
    assert n == d * alignment + n % alignment;
    assert n % alignment == (q - d) * alignment;
    SmallMultipleIsZero(q - d, alignment, n % alignment);
  }

  /** A multiple of `k` below `k` is zero. */
  lemma SmallMultipleIsZero(m: int, k: nat, r: int)
    requires k > 0 && r == m * k && 0 <= r < k
    ensures m == 0
  {
    MultipleBounds(m, k);
  }

  /** A non-zero multiple of `k` is at least `k` away from zero. */
  lemma MultipleBounds(m: int, k: nat)
    ensures m >= 1 ==> m * k >= k
    ensures m <= -1 ==> m * k <= 0 - (k as int)
  {
    if m >= 1 {
      assert m * k == (m - 1) * k + k;
    } else if m <= -1 {
      assert m * k == (m + 1) * k - k;
      assert (m + 1) * k == -((-(m + 1)) * k);
    }
  }

  /** There is exactly one rounded size. */
  lemma {:induction false} RoundedUnique(r1: nat, r2: nat, size: nat, alignment: nat)
    requires alignment > 0
    requires IsRounded(r1, size, alignment) && IsRounded(r2, size, alignment)
    ensures r1 == r2
  {
  }

  /** The closed form is the least aligned size not below `size`. */
  lemma NextMultipleIsRounded(size: nat, alignment: nat)
    requires alignment > 0
    ensures IsRounded(NextMultiple(size, alignment), size, alignment)
  {
    var r := NextMultiple(size, alignment);
    forall k | size <= k < r
      ensures !Aligned(k, alignment)
    {
      var q := size / alignment;
      assert size == q * alignment + size % alignment;
      assert r == (q + 1) * alignment;
      assert q * alignment < k < (q + 1) * alignment;
      NotAlignedBetween(q, k, alignment);
    }
  }

  lemma MulMono(i: nat, k: nat, e: nat)
    requires i <= k
    ensures i * e <= k * e
  {
    assert k * e == i * e + (k - i) * e;
  }

  /** No multiple of `alignment` lies strictly between two consecutive ones. */
  lemma NotAlignedBetween(q: nat, k: nat, alignment: nat)
    requires alignment > 0
    requires q * alignment < k < (q + 1) * alignment
    ensures !Aligned(k, alignment)
  {
    var m := k / alignment;
    assert k == m * alignment + k % alignment;
    if m > q {
      MulMono(q + 1, m, alignment);
      assert false;
    }
    MulMono(m, q, alignment);
  }

  /** The search loop of the constructors: starting from `sizeof(T)`, step up
      one unit at a time until the value is a multiple of `alignment`. The
      source's loop guard `elsize_ < elsize_ + alignment_` cannot fail for
      unbounded sizes, so the loop ends exactly at the first multiple. */
  method ComputeElementSize(size: nat, alignment: nat) returns (elsize: nat)
    requires size > 0 && alignment > 0
    ensures IsRounded(elsize, size, alignment)
    ensures elsize < size + alignment
  {
    elsize := size;
    while elsize % alignment != 0
      invariant size <= elsize <= NextMultiple(size, alignment)
      invariant forall k :: size <= k < elsize ==> !Aligned(k, alignment)
      decreases NextMultiple(size, alignment) - elsize
    {
      elsize := elsize + 1;
    }
  }

  /** The loop computes the closed form, which the rest of the model uses. */
  lemma ComputedSizeIsNextMultiple(size: nat, alignment: nat, elsize: nat)
    requires alignment > 0
    requires IsRounded(elsize, size, alignment)
    ensures elsize == NextMultiple(size, alignment)
  {
    NextMultipleIsRounded(size, alignment);
    RoundedUnique(elsize, NextMultiple(size, alignment), size, alignment);
  }
}

=== FILE: fb_alloc.dfy ===
/** The allocator handle `fb_alloc<T, nof_elements, alignment>` of
    fb_alloc.h as a state machine: a handle value plus the world it lives
    in (link words in memory, the heap cells of the counters, and the
    instantiation's global chunk cache). Every operation is a function from
    the old state to a `Result` holding the new one. */
module FbAlloc {
  import opened Wrappers
  import opened Memory
  import opened ElementSize
  import opened Threading
  import opened ChunkCache

  /** Template arguments `nof_elements` and `alignment`, and the size of a
      pointer, `sizeof(char*)`, in the same unit as element sizes. */
  datatype Config = Config(nofElements: nat, alignment: nat, ptrSize: nat) {
    /** The constructors' assertions on the configuration. */
    predicate Valid() {
      nofElements > 0 && alignment > 0 && ptrSize > 0
    }
  }

  /** The data members of one handle: its element size, its own copies of
      the free-list head and chunk-registry head, and the addresses of the
      two counter cells it may share with other handles (None = null). */
  datatype Handle = Handle(
    cfg: Config,
    elsize: nat,
    poolHead: Addr,
    chunkHead: Addr,
    refcount: Option<Addr>,
    nofAllocs: Option<Addr>)
  {
    /** Where a chunk keeps its registry link: `elsize_ * nof_elmts_`. */
    function LinkOffset(): nat {
      elsize * cfg.nofElements
    }

    /** The registry chain of this handle visits `regs` and its link words
        never fall on a chunk start. */
    ghost predicate Registry(mem: Mem, regs: seq<Addr>) {
      Chain(mem, chunkHead, LinkOffset(), regs) && NoAlias(regs, LinkOffset())
    }
  }

  /** Everything a handle's operations may read or write besides the handle:
      link words, counter cells, and the global chunk cache. */
  datatype World = World(mem: Mem, cells: map<Addr, int>, cache: Cache)

  ghost predicate NoAlias(regs: seq<Addr>, off: nat) {
    forall x, y :: x in regs && y in regs ==> x != y + off
  }

  /** The heap's answers for the two counter cells are unused cells. */
  ghost predicate FreshCells(w: World, rcCell: Option<Addr>, naCell: Option<Addr>) {
    && (rcCell.Some? ==> rcCell.value !in w.cells)
    && (naCell.Some? ==> naCell.value !in w.cells)
    && (rcCell.Some? && naCell.Some? ==> rcCell.value != naCell.value)
  }

  //
  // Observers (fb_alloc.h:448-497)
  //

  function MaxSize(h: Handle): nat {
    h.elsize
  }

  function ElSize(h: Handle): nat {
    h.elsize
  }

  function ChunkSize(h: Handle): nat {
    h.elsize * h.cfg.nofElements + h.cfg.ptrSize
  }

  /** `refcount()`: the shared count, or 0 for a null counter. */
  function RefCount(w: World, h: Handle): int
    requires h.refcount.Some? ==> h.refcount.value in w.cells
  {
    if h.refcount.Some? then w.cells[h.refcount.value] else 0
  }

  /** `nof_allocs()`: the shared count, or 0 for a null counter. */
  function NofAllocs(w: World, h: Handle): int
    requires h.nofAllocs.Some? ==> h.nofAllocs.value in w.cells
  {
    if h.nofAllocs.Some? then w.cells[h.nofAllocs.value] else 0
  }

  //
  // Construction (fb_alloc.h:105-198)
  //

  /** The default constructor: assert the template arguments, round the
      element size, then allocate the two counters with a throwing `new`, so
      a refused cell is `bad_alloc`. */
  function Construct(w: World, cfg: Config, sizeofT: nat, rcCell: Option<Addr>, naCell: Option<Addr>): (r: Result<(World, Handle)>)
    requires cfg.ptrSize > 0 && sizeofT > 0
    requires FreshCells(w, rcCell, naCell)
    ensures !cfg.Valid() ==> r == Err(AssertionFailure)
    ensures r.Ok? <==> cfg.Valid() && rcCell.Some? && naCell.Some?
    ensures r.Ok? ==>
      var (w', h) := r.value;
      && IsRounded(h.elsize, sizeofT, cfg.alignment) && h.cfg == cfg
      && h.poolHead == Null && h.chunkHead == Null
      && h.refcount.Some? && h.nofAllocs.Some?
      && h.refcount.value in w'.cells && h.nofAllocs.value in w'.cells
      && RefCount(w', h) == 1 && NofAllocs(w', h) == 0
      && w'.mem == w.mem && w'.cache == w.cache
      && (forall a :: a in w.cells ==> a in w'.cells && w'.cells[a] == w.cells[a])
  {
    if !cfg.Valid() then Err(AssertionFailure)
    else
      var elsize := NextMultiple(sizeofT, cfg.alignment);
      NextMultipleIsRounded(sizeofT, cfg.alignment);
      match (rcCell, naCell)
      case (Some(rc), Some(na)) =>
        Ok((w.(cells := w.cells[rc := 1][na := 0]), Handle(cfg, elsize, Null, Null, rcCell, naCell)))
      case _ => Err(BadAlloc)
  }

  /** The converting constructor from a handle `src` of another element
      type with the same `nof_elements` and `alignment`. After the same
      assertions and rounding as the default constructor, with an equal
      rounded size it copies `src`'s two heads by value and shares its
      counters, incrementing the reference count; otherwise it starts a
      group of its own with counters from a non-throwing `new`, which may
      leave either of them null. */
  function ConvertCtor(w: World, cfg: Config, sizeofT: nat, src: Handle, rcCell: Option<Addr>, naCell: Option<Addr>): (r: Result<(World, Handle)>)
    requires cfg.ptrSize > 0 && sizeofT > 0 && src.cfg == cfg
    requires FreshCells(w, rcCell, naCell)
    ensures !cfg.Valid() ==> r == Err(AssertionFailure)
    ensures r.Ok? ==>
      var (w', h) := r.value;
      cfg.Valid() && IsRounded(h.elsize, sizeofT, cfg.alignment) && h.cfg == cfg && w'.mem == w.mem && w'.cache == w.cache
    ensures cfg.Valid() && NextMultiple(sizeofT, cfg.alignment) == src.elsize ==>
      && (r.Ok? <==> src.refcount.Some? && src.refcount.value in w.cells && w.cells[src.refcount.value] + 1 >= 0)
      && (r.Ok? ==>
            var (w', h) := r.value;
            && h == src
            && h.refcount.value in w'.cells
            && RefCount(w', h) == RefCount(w, src) + 1
            && (forall a :: a in w.cells && a != h.refcount.value ==> a in w'.cells && w'.cells[a] == w.cells[a]))
    ensures cfg.Valid() && NextMultiple(sizeofT, cfg.alignment) != src.elsize ==>
      && r.Ok?
      && var (w', h) := r.value;
      && h.poolHead == Null && h.chunkHead == Null
      && h.refcount == rcCell && h.nofAllocs == naCell
      && (h.refcount.Some? ==> h.refcount.value in w'.cells)
      && (h.nofAllocs.Some? ==> h.nofAllocs.value in w'.cells)
      && RefCount(w', h) == (if rcCell.Some? then 1 else 0)
      && NofAllocs(w', h) == 0
      && (forall a :: a in w.cells ==> a in w'.cells && w'.cells[a] == w.cells[a])
  {
    if !cfg.Valid() then Err(AssertionFailure)
    else
      var elsize := NextMultiple(sizeofT, cfg.alignment);
      NextMultipleIsRounded(sizeofT, cfg.alignment);
      if elsize == src.elsize then
        match src.refcount
        case None => Err(Undefined)
        case Some(rc) =>
          if rc !in w.cells then Err(Undefined)
          else
            var count := w.cells[rc] + 1;
            if count < 0 then Err(AssertionFailure)
            else Ok((w.(cells := w.cells[rc := count]), Handle(cfg, elsize, src.poolHead, src.chunkHead, src.refcount, src.nofAllocs)))
      else
        var cells1 := if rcCell.Some? then w.cells[rcCell.value := 1] else w.cells;
        var cells2 := if naCell.Some? then cells1[naCell.value := 0] else cells1;
        Ok((w.(cells := cells2), Handle(cfg, elsize, Null, Null, rcCell, naCell)))
  }

  //
  // The pool (fb_alloc.h:232-319)
  //

  /** `grow`: take a chunk from the cache or the heap, store the old
      registry head in its trailing word and make it the registry head,
      thread its blocks into a null-terminated free list, and make that the
      pool. Counters that are null make it throw `bad_alloc` first. */
  function Grow(w: World, h: Handle, heap: Option<Addr>): (r: Result<(World, Handle)>)
    requires h.cfg.Valid() && h.elsize > 0 && h.elsize >= h.cfg.ptrSize
    requires heap.Some? ==> heap.value != Null
    ensures r.Ok? <==>
      h.refcount.Some? && h.nofAllocs.Some? && AllocateChunk(w.mem, w.cache, ChunkSize(h), heap).Ok?
    ensures r.Ok? ==>
      var (w', h') := r.value;
      && h'.chunkHead == (if w.cache.head != Null then w.cache.head else heap.value)
      && h' == h.(poolHead := h'.chunkHead, chunkHead := h'.chunkHead)
      && Read(w'.mem, h'.chunkHead + h.LinkOffset()) == h.chunkHead
      && Chain(w'.mem, h'.poolHead, 0, Blocks(h'.chunkHead, h.elsize, h.cfg.nofElements))
      && w'.cells == w.cells
  {
    if h.refcount.None? || h.nofAllocs.None? then Err(BadAlloc)
    else
      match AllocateChunk(w.mem, w.cache, ChunkSize(h), heap)
      case Err(f) => Err(f)
      case Ok((mem1, cache1, start)) =>
        var e := h.elsize;
        var n := h.cfg.nofElements;
        var mem2 := mem1[start + h.LinkOffset() := h.chunkHead];
        var mem3 := PlainLinks(mem2, start, e, n);
        TrailerNotBlock(start, e, n);
        PlainLinksFrame(mem2, start, e, n, start + h.LinkOffset());
        PlainLinksChain(mem2, start, e, n);
        Ok((World(mem3, w.cells, cache1), h.(poolHead := start, chunkHead := start)))
  }

  /** The chunks of `regs` retired in registry order, so the cache ends up
      with the last of them on top. */
  function RevPrepend(regs: seq<Addr>, xs: seq<Addr>): (r: seq<Addr>)
    ensures |r| == |regs| + |xs|
    ensures forall c :: c in r <==> c in regs || c in xs
    decreases |regs|
  {
    if regs == [] then xs
    else
      assert regs == [regs[0]] + regs[1..];
      RevPrepend(regs[1..], [regs[0]] + xs)
  }

  /** The loop of `clean` from the chunk `ptr` on: read the next registry
      link, then retire the chunk to the global cache. */
  function CleanFrom(mem: Mem, cache: Cache, ptr: Addr, off: nat, ghost regs: seq<Addr>): (r: Result<(Mem, Cache)>)
    requires Chain(mem, ptr, off, regs) && NoAlias(regs, off)
    ensures r.Ok? ==> r.value.1.nofAllocated == cache.nofAllocated
    ensures r.Ok? ==> r.value.1.nofFree == cache.nofFree + |regs|
    ensures cache.nofFree <= cache.nofAllocated ==> (r.Ok? <==> cache.nofFree + |regs| <= cache.nofAllocated)
    decreases |regs|
  {
    if ptr == Null then Ok((mem, cache))
    else
      var next := Read(mem, ptr + off);
      match DeallocateChunk(mem, cache, ptr)
      case Err(f) => Err(f)
      case Ok((mem1, cache1)) =>
        assert mem1 == mem[ptr := cache.head];
        assert ptr == regs[0] && regs[0] in regs;
        assert forall x :: x in regs[1..] ==> x in regs;
        ChainFrame(mem, mem1, next, off, regs[1..]);
        CleanFrom(mem1, cache1, next, off, regs[1..])
  }

  /** `clean`: retire every chunk of the handle's own registry to the
      global cache, then null both heads. */
  function Clean(w: World, h: Handle, ghost regs: seq<Addr>): (r: Result<(World, Handle)>)
    requires h.Registry(w.mem, regs)
    ensures w.cache.nofFree <= w.cache.nofAllocated ==> (r.Ok? <==> w.cache.nofFree + |regs| <= w.cache.nofAllocated)
    ensures r.Ok? ==>
      var (w', h') := r.value;
      && h' == h.(poolHead := Null, chunkHead := Null)
      && w'.cells == w.cells
      && w'.cache.nofFree == w.cache.nofFree + |regs|
      && w'.cache.nofAllocated == w.cache.nofAllocated
  {
    match CleanFrom(w.mem, w.cache, h.chunkHead, h.LinkOffset(), regs)
    case Err(f) => Err(f)
    case Ok((mem1, cache1)) => Ok((World(mem1, w.cells, cache1), h.(poolHead := Null, chunkHead := Null)))
  }

  /** `p` lies between the start of a chunk of `regs` and the start of that
      chunk's last block. */
  ghost predicate InSomeChunk(p: Addr, regs: seq<Addr>, e: nat, n: nat) {
    exists i :: 0 <= i < |regs| && regs[i] <= p <= regs[i] + (n - 1) * e
  }

  /** The loop of `check` from the chunk `ptr` on. */
  function CheckFrom(mem: Mem, ptr: Addr, p: Addr, e: nat, n: nat, ghost regs: seq<Addr>): (r: bool)
    requires n >= 1 && Chain(mem, ptr, e * n, regs)
    ensures r <==> InSomeChunk(p, regs, e, n)
    decreases |regs|
  {
    if ptr == Null then false
    else if ptr <= p <= ptr + (n - 1) * e then true
    else
      var r := CheckFrom(mem, Read(mem, ptr + e * n), p, e, n, regs[1..]);
      assert forall i :: 1 <= i < |regs| ==> regs[i] == regs[1..][i - 1];
      assert InSomeChunk(p, regs[1..], e, n) ==> InSomeChunk(p, regs, e, n);
      r
  }

  /** `check(p)`: does `p` fall inside one of the handle's own chunks, up to
      the start of its last block? */
  function Check(w: World, h: Handle, p: Addr, ghost regs: seq<Addr>): (r: bool)
    requires h.cfg.Valid() && Chain(w.mem, h.chunkHead, h.LinkOffset(), regs)
    ensures r <==> InSomeChunk(p, regs, h.elsize, h.cfg.nofElements)
  {
    CheckFrom(w.mem, h.chunkHead, p, h.elsize, h.cfg.nofElements, regs)
  }

  //
  // Single-block allocation (fb_alloc.h:372-414, branches with n == 1)
  //

  /** `allocate(1)`: grow if the pool is empty, pop the pool's head block
      and count it. */
  function Allocate1(w: World, h: Handle, heap: Option<Addr>): (r: Result<(World, Handle, Addr)>)
    requires h.cfg.Valid() && h.elsize > 0 && h.elsize >= h.cfg.ptrSize
    requires heap.Some? ==> heap.value != Null
    ensures r.Ok? ==>
      var (w', h', p) := r.value;
      && h.nofAllocs.Some? && h.nofAllocs.value in w.cells && h'.nofAllocs == h.nofAllocs
      && h.nofAllocs.value in w'.cells
      && NofAllocs(w', h') == NofAllocs(w, h) + 1 > 0
      && w'.cells == w.cells[h.nofAllocs.value := w.cells[h.nofAllocs.value] + 1]
      && h'.refcount == h.refcount && h'.cfg == h.cfg && h'.elsize == h.elsize
      && h'.poolHead == Read(w'.mem, p)
      && (h.poolHead != Null ==>
            p == h.poolHead && w'.mem == w.mem && w'.cache == w.cache && h'.chunkHead == h.chunkHead)
      && (h.poolHead == Null ==>
            && p == h'.chunkHead && p != Null
            && Read(w'.mem, p + h.LinkOffset()) == h.chunkHead
            && Chain(w'.mem, p, 0, Blocks(p, h.elsize, h.cfg.nofElements)))
    ensures h.poolHead != Null && h.nofAllocs.Some? && h.nofAllocs.value in w.cells && w.cells[h.nofAllocs.value] >= 0 ==>
      r.Ok?
  {
    var grown := if h.poolHead == Null then Grow(w, h, heap) else Ok((w, h));
    match grown
    case Err(f) => Err(f)
    case Ok((w1, h1)) =>
      var p := h1.poolHead;
      var h2 := h1.(poolHead := Read(w1.mem, p));
      match h2.nofAllocs
      case None => Err(Undefined)
      case Some(na) =>
        if na !in w1.cells then Err(Undefined)
        else
          var count := w1.cells[na] + 1;
          if count <= 0 then Err(AssertionFailure)
          else Ok((w1.(cells := w1.cells[na := count]), h2, p))
  }

  /** `deallocate(p, 1)`: the debug-build `assert(check(p))`, then push `p`
      on the pool and uncount it. */
  function Deallocate1(w: World, h: Handle, p: Addr, ghost regs: seq<Addr>): (r: Result<(World, Handle)>)
    requires h.cfg.Valid() && h.elsize >= h.cfg.ptrSize && Chain(w.mem, h.chunkHead, h.LinkOffset(), regs)
    ensures !InSomeChunk(p, regs, h.elsize, h.cfg.nofElements) ==> r == Err(AssertionFailure)
    ensures r.Ok? ==>
      var (w', h') := r.value;
      && InSomeChunk(p, regs, h.elsize, h.cfg.nofElements)
      && h' == h.(poolHead := p)
      && w'.mem == w.mem[p := h.poolHead] && w'.cache == w.cache
      && h.nofAllocs.Some? && h.nofAllocs.value in w.cells && h.nofAllocs.value in w'.cells
      && NofAllocs(w', h') == NofAllocs(w, h) - 1 >= 0
      && w'.cells == w.cells[h.nofAllocs.value := w.cells[h.nofAllocs.value] - 1]
    ensures InSomeChunk(p, regs, h.elsize, h.cfg.nofElements) && h.nofAllocs.Some? && h.nofAllocs.value in w.cells
            && w.cells[h.nofAllocs.value] >= 1 ==>
      r.Ok?
  {
    if !Check(w, h, p, regs) then Err(AssertionFailure)
    else
      var mem1 := w.mem[p := h.poolHead];
      var h1 := h.(poolHead := p);
      match h.nofAllocs
      case None => Err(Undefined)
      case Some(na) =>
        if na !in w.cells then Err(Undefined)
        else
          var count := w.cells[na] - 1;
          if count < 0 then Err(AssertionFailure)
          else Ok((World(mem1, w.cells[na := count], w.cache), h1))
  }

  //
  // Destruction and release (fb_alloc.h:200-230)
  //

  /** The destructor: a null reference count does nothing; otherwise count
      one reference down, and when none is left retire the handle's own
      chunks and delete both counters. */
  function Destroy(w: World, h: Handle, ghost regs: seq<Addr>): (r: Result<World>)
    requires h.Registry(w.mem, regs)
    ensures h.refcount.None? ==> r == Ok(w)
    ensures h.refcount.Some? && h.refcount.value in w.cells && w.cells[h.refcount.value] > 1 ==>
      r == Ok(w.(cells := w.cells[h.refcount.value := w.cells[h.refcount.value] - 1]))
    ensures h.refcount.Some? && h.refcount.value in w.cells && w.cells[h.refcount.value] == 1 ==>
      && (w.cache.nofFree <= w.cache.nofAllocated ==> (r.Ok? <==> w.cache.nofFree + |regs| <= w.cache.nofAllocated))
      && (r.Ok? ==>
            && h.refcount.value !in r.value.cells
            && (h.nofAllocs.Some? ==> h.nofAllocs.value !in r.value.cells)
            && (forall a :: a in w.cells && a != h.refcount.value && (h.nofAllocs.Some? ==> a != h.nofAllocs.value) ==>
                  a in r.value.cells && r.value.cells[a] == w.cells[a])
            && (forall a :: a in r.value.cells ==> a in w.cells)
            && r.value.cache.nofFree == w.cache.nofFree + |regs|
            && r.value.cache.nofAllocated == w.cache.nofAllocated)
    ensures h.refcount.Some? && (h.refcount.value !in w.cells || w.cells[h.refcount.value] < 1) ==> r.Err?
  {
    match h.refcount
    case None => Ok(w)
    case Some(rc) =>
      if rc !in w.cells then Err(Undefined)
      else
        var count := w.cells[rc] - 1;
        if count < 0 then Err(AssertionFailure)
        else if count > 0 then Ok(w.(cells := w.cells[rc := count]))
        else
          match Clean(w, h, regs)
          case Err(f) => Err(f)
          case Ok((w1, _)) =>
            var cells1 := w1.cells - {rc};
            var cells2 := if h.nofAllocs.Some? then cells1 - {h.nofAllocs.value} else cells1;
            Ok(w1.(cells := cells2))
  }

  /** `release`: like the destructor, but at zero it keeps the counters,
      resetting the reference count to 1 and the allocation count to 0. */
  function Release(w: World, h: Handle, ghost regs: seq<Addr>): (r: Result<(World, Handle)>)
    requires h.Registry(w.mem, regs)
    ensures h.refcount.None? ==> r == Ok((w, h))
    ensures h.refcount.Some? && h.refcount.value in w.cells && w.cells[h.refcount.value] > 1 ==>
      r == Ok((w.(cells := w.cells[h.refcount.value := w.cells[h.refcount.value] - 1]), h))
    ensures h.refcount.Some? && h.refcount.value in w.cells && w.cells[h.refcount.value] == 1 ==>
      && (w.cache.nofFree <= w.cache.nofAllocated ==>
            (r.Ok? <==> h.nofAllocs.Some? && w.cache.nofFree + |regs| <= w.cache.nofAllocated))
      && (r.Ok? ==>
            var (w', h') := r.value;
            && h' == h.(poolHead := Null, chunkHead := Null)
            && h'.nofAllocs.Some? && h'.nofAllocs.value in w'.cells && h'.refcount.value in w'.cells
            && NofAllocs(w', h') == 0
            && (h.refcount != h.nofAllocs ==> RefCount(w', h') == 1)
            && w'.cells == w.cells[h.refcount.value := 1][h.nofAllocs.value := 0]
            && w'.cache.nofFree == w.cache.nofFree + |regs|
            && w'.cache.nofAllocated == w.cache.nofAllocated)
    ensures h.refcount.Some? && (h.refcount.value !in w.cells || w.cells[h.refcount.value] < 1) ==> r.Err?
  {
    match h.refcount
    case None => Ok((w, h))
    case Some(rc) =>
      if rc !in w.cells then Err(Undefined)
      else
        var count := w.cells[rc] - 1;
        if count < 0 then Err(AssertionFailure)
        else if count > 0 then Ok((w.(cells := w.cells[rc := count]), h))
        else
          match Clean(w, h, regs)
          case Err(f) => Err(f)
          case Ok((w1, h1)) =>
            match h.nofAllocs
            case None => Err(Undefined)
            case Some(na) => Ok((w1.(cells := w1.cells[rc := 1][na := 0]), h1))
  }
}

=== FILE: memory.dfy ===
/** Abstract memory: addresses are naturals with 0 as the null pointer, and
    the only contents that matter are the pointer-sized link words that the
    allocator stores inside blocks and chunks. */
module Memory {

  type Addr = nat

  const Null: Addr := 0

  /** Link words by address; an address never written holds zero. */
  type Mem = map<Addr, Addr>

  function Read(mem: Mem, a: Addr): Addr {
    if a in mem then mem[a] else Null
  }

  /** Clears every word in `[start, start + size)`: the `memset` of a
      freshly allocated chunk. */
  function ZeroFill(mem: Mem, start: Addr, size: nat): (m: Mem)
    ensures forall a: Addr :: Read(m, a) == if start <= a < start + size then Null else Read(mem, a)
  {
    map a | a in mem && !(start <= a < start + size) :: mem[a]
  }

  /** Following the link stored at offset `off` of each node, starting at
      `head`, visits exactly the nodes `xs` and then reaches null. */
  ghost predicate Chain(mem: Mem, head: Addr, off: nat, xs: seq<Addr>)
    decreases |xs|
  {
    if xs == [] then head == Null
    else head == xs[0] && head != Null && Chain(mem, Read(mem, head + off), off, xs[1..])
  }

  ghost predicate Distinct(xs: seq<Addr>) {
    forall i, j :: 0 <= i < j < |xs| ==> xs[i] != xs[j]
  }

  /** A chain is determined by its head. */
  lemma {:induction false} ChainDeterministic(mem: Mem, head: Addr, off: nat, xs: seq<Addr>, ys: seq<Addr>)
    requires Chain(mem, head, off, xs) && Chain(mem, head, off, ys)
    ensures xs == ys
    decreases |xs|
  {
    if xs != [] && ys != [] {
      ChainDeterministic(mem, Read(mem, head + off), off, xs[1..], ys[1..]);
      assert xs == [xs[0]] + xs[1..];
      assert ys == [ys[0]] + ys[1..];
    }
  }

  lemma {:induction false} ChainSuffix(mem: Mem, head: Addr, off: nat, xs: seq<Addr>, i: nat)
    requires Chain(mem, head, off, xs) && i < |xs|
    ensures Chain(mem, xs[i], off, xs[i..])
    decreases i
  {
    if i > 0 {
      ChainSuffix(mem, Read(mem, head + off), off, xs[1..], i - 1);
      assert xs[1..][i - 1..] == xs[i..];
    }
  }

  /** No node of a chain is null. */
  lemma ChainNonNull(mem: Mem, head: Addr, off: nat, xs: seq<Addr>)
    requires Chain(mem, head, off, xs)
    ensures forall x :: x in xs ==> x != Null
  {
    forall x | x in xs
      ensures x != Null
    {
      var i :| 0 <= i < |xs| && xs[i] == x;
      ChainSuffix(mem, head, off, xs, i);
    }
  }

  /** A null-terminated chain never visits a node twice: a repeated node
      would make the chain after its two visits coincide, although the two
      remainders have different lengths. */
  lemma ChainDistinct(mem: Mem, head: Addr, off: nat, xs: seq<Addr>)
    requires Chain(mem, head, off, xs)
    ensures Distinct(xs)
  {
    forall i, j | 0 <= i < j < |xs|
      ensures xs[i] != xs[j]
    {
      if xs[i] == xs[j] {
        ChainSuffix(mem, head, off, xs, i);
        ChainSuffix(mem, head, off, xs, j);
        ChainDeterministic(mem, xs[i], off, xs[i..], xs[j..]);
      }
    }
  }

  /** A chain survives any change of memory that keeps its link words. */
  lemma {:induction false} ChainFrame(mem: Mem, mem': Mem, head: Addr, off: nat, xs: seq<Addr>)
    requires Chain(mem, head, off, xs)
    requires forall x :: x in xs ==> Read(mem', x + off) == Read(mem, x + off)
    ensures Chain(mem', head, off, xs)
    decreases |xs|
  {
    if xs != [] {
      assert xs[0] in xs;
      assert forall x :: x in xs[1..] ==> x in xs;
      ChainFrame(mem, mem', Read(mem, head + off), off, xs[1..]);
    }
  }

  /** The addresses of the `n` blocks of size `e` laid out from `start`. */
  function Blocks(start: Addr, e: nat, n: nat): (bs: seq<Addr>)
    ensures |bs| == n
  {
    seq(n, i requires 0 <= i < n => start + i * e)
  }

  /** Two regions of `size` words starting at `c` and `d` do not overlap. */
  ghost predicate Apart(c: Addr, d: Addr, size: nat) {
    c + size <= d || d + size <= c
  }

  ghost predicate Within(a: Addr, c: Addr, size: nat) {
    c <= a < c + size
  }

  lemma ApartExcludes(a: Addr, c: Addr, d: Addr, size: nat)
    requires Apart(c, d, size) && Within(a, c, size)
    ensures !Within(a, d, size)
  {
  }

  lemma MulStrictMono(i: nat, k: nat, e: nat)
    requires i < k && e > 0
    ensures i * e < k * e
  {
    assert k * e == i * e + (k - i) * e;
  }

  /** Block `i` of `n` starts before the word at offset `n * e`. */
  lemma BlockBounds(start: Addr, e: nat, n: nat, i: nat)
    requires i < n && e > 0
    ensures start <= Blocks(start, e, n)[i] < start + n * e
    ensures Blocks(start, e, n)[i] <= start + (n - 1) * e
  {
    MulStrictMono(i, n, e);
    if i < n - 1 {
      MulStrictMono(i, n - 1, e);
    }
  }

  /** The word at offset `n * e`, where a chunk keeps its registry link, is
      not the first word of any of its `n` blocks. */
  lemma TrailerNotBlock(start: Addr, e: nat, n: nat)
    requires e > 0
    ensures start + n * e !in Blocks(start, e, n)
  {
    forall i | 0 <= i < n
      ensures Blocks(start, e, n)[i] != start + n * e
    {
      BlockBounds(start, e, n, i);
    }
  }
}

=== FILE: pool_invariant.dfy ===
/** The invariant of a single, unshared handle and the operations that
    preserve it: the handle's registry, free list and the global cache are
    well-formed null-terminated lists over pairwise disjoint chunks, every
    free or outstanding block lies in a registered chunk, and the counters
    account for every block and every chunk. */
module PoolInvariant {
  import opened Wrappers
  import opened Memory
  import opened Threading
  import opened ChunkCache
  import opened ElementSize
  import opened FbAlloc

  /** `b` is the start of a block of one of the chunks `regs`. */
  ghost predicate InChunks(b: Addr, regs: seq<Addr>, e: nat, n: nat) {
    exists c :: c in regs && b in Blocks(c, e, n)
  }

  /** No two of the chunks `cs` overlap. */
  ghost predicate ChunksApart(cs: seq<Addr>, size: nat) {
    forall c, d :: c in cs && d in cs && c != d ==> Apart(c, d, size)
  }

  /** The three lists are null-terminated chains: the registry through the
      trailing words, the cache and the free list through first words. */
  ghost predicate Shape(w: World, h: Handle, regs: seq<Addr>, free: seq<Addr>, cached: seq<Addr>) {
    && Chain(w.mem, h.chunkHead, h.LinkOffset(), regs)
    && Chain(w.mem, w.cache.head, 0, cached)
    && Chain(w.mem, h.poolHead, 0, free)
  }

  /** Chunks of `size` words holding `n` blocks of `e` words: registered and
      cached chunks are different and do not overlap; free and outstanding
      blocks are different blocks of registered chunks. */
  ghost predicate Placement(e: nat, n: nat, size: nat, regs: seq<Addr>, free: seq<Addr>, live: set<Addr>, cached: seq<Addr>) {
    && (forall c :: c in regs ==> c !in cached)
    && ChunksApart(regs + cached, size)
    && (forall b :: b in free ==> InChunks(b, regs, e, n))
    && (forall b :: b in live ==> InChunks(b, regs, e, n))
    && (forall b :: b in free ==> b !in live)
  }

  /** The handle alone holds its counters: one reference, one count per
      outstanding block, and every block of every registered chunk either
      free or outstanding; every chunk from the heap is registered or
      cached. */
  ghost predicate Counts(w: World, h: Handle, regs: seq<Addr>, free: seq<Addr>, live: set<Addr>, cached: seq<Addr>) {
    && h.refcount.Some? && h.nofAllocs.Some? && h.refcount.value != h.nofAllocs.value
    && h.refcount.value in w.cells && h.nofAllocs.value in w.cells
    && RefCount(w, h) == 1
    && NofAllocs(w, h) == |live|
    && NofAllocs(w, h) + |free| == h.cfg.nofElements * |regs|
    && w.cache.nofFree == |cached|
    && w.cache.nofAllocated == |cached| + |regs|
  }

  /** The state of one unshared handle `h` in world `w`, abstracted by its
      registered chunks `regs`, its free blocks `free` (in list order), the
      blocks handed out and not returned `live`, and the cached chunks
      `cached` (top first). Blocks are at least one pointer wide, so that
      the link written into a block stays inside it. */
  ghost predicate Inv(w: World, h: Handle, regs: seq<Addr>, free: seq<Addr>, live: set<Addr>, cached: seq<Addr>) {
    && h.cfg.Valid() && h.elsize > 0 && h.elsize >= h.cfg.ptrSize
    && Shape(w, h, regs, free, cached)
    && Placement(h.elsize, h.cfg.nofElements, ChunkSize(h), regs, free, live, cached)
    && Counts(w, h, regs, free, live, cached)
  }

  /** A chunk the heap may hand out: not null, and clear of every chunk
      already known. */
  ghost predicate FreshChunk(heap: Option<Addr>, chunks: seq<Addr>, size: nat) {
    heap.Some? ==> heap.value != Null && forall c :: c in chunks ==> Apart(heap.value, c, size)
  }

  //
  // Geometry of a chunk
  //

  lemma BlockWithin(b: Addr, c: Addr, e: nat, n: nat, ptrSize: nat)
    requires e > 0 && b in Blocks(c, e, n)
    ensures Within(b, c, n * e + ptrSize)
    ensures c <= b <= c + (n - 1) * e && b < c + n * e
  {
    var i :| 0 <= i < n && Blocks(c, e, n)[i] == b;
    BlockBounds(c, e, n, i);
  }

  lemma InChunksWithin(b: Addr, regs: seq<Addr>, e: nat, n: nat, ptrSize: nat) returns (c: Addr)
    requires e > 0 && InChunks(b, regs, e, n)
    ensures c in regs && b in Blocks(c, e, n) && Within(b, c, n * e + ptrSize)
    ensures c <= b <= c + (n - 1) * e
  {
    c :| c in regs && b in Blocks(c, e, n);
    BlockWithin(b, c, e, n, ptrSize);
  }

  /** The first word of a block never holds a registry link, nor the cache
      link of another chunk. */
  lemma BlockIsNoLinkWord(b: Addr, c: Addr, x: Addr, e: nat, n: nat, ptrSize: nat)
    requires e > 0 && ptrSize > 0 && b in Blocks(c, e, n)
    requires x == c || Apart(c, x, n * e + ptrSize)
    ensures b != x + n * e
    ensures x != c ==> b != x
  {
    BlockWithin(b, c, e, n, ptrSize);
  }

  lemma ApartNoAlias(regs: seq<Addr>, cached: seq<Addr>, e: nat, n: nat, ptrSize: nat)
    requires e > 0 && n > 0 && ptrSize > 0
    requires ChunksApart(regs + cached, n * e + ptrSize)
    ensures NoAlias(regs, e * n)
  {
    assert e * n > 0;
    forall x, y | x in regs && y in regs
      ensures x != y + e * n
    {
      assert x in regs + cached && y in regs + cached;
    }
  }

  //
  // Construction
  //

  /** A freshly constructed handle whose blocks can hold a link starts the
      invariant with an empty pool, whatever the cache holds. */
  lemma ConstructEstablishes(w: World, cfg: Config, sizeofT: nat, rcCell: Option<Addr>, naCell: Option<Addr>, cached: seq<Addr>)
    requires cfg.Valid() && sizeofT > 0 && FreshCells(w, rcCell, naCell)
    requires rcCell.Some? && naCell.Some?
    requires NextMultiple(sizeofT, cfg.alignment) >= cfg.ptrSize
    requires CacheInv(w.mem, w.cache, cached, 0)
    requires ChunksApart(cached, NextMultiple(sizeofT, cfg.alignment) * cfg.nofElements + cfg.ptrSize)
    ensures Construct(w, cfg, sizeofT, rcCell, naCell).Ok?
    ensures var (w', h) := Construct(w, cfg, sizeofT, rcCell, naCell).value;
      Inv(w', h, [], [], {}, cached)
  {
    var (w', h) := Construct(w, cfg, sizeofT, rcCell, naCell).value;
    assert [] + cached == cached;
  }

  //
  // Allocation from a non-empty free list
  //

  /** `allocate(1)` on a non-empty pool, spelled out. */
  lemma PopStep(w: World, h: Handle, heap: Option<Addr>)
    requires h.cfg.Valid() && h.elsize > 0 && h.elsize >= h.cfg.ptrSize && (heap.Some? ==> heap.value != Null)
    requires h.poolHead != Null && h.nofAllocs.Some? && h.nofAllocs.value in w.cells
    requires w.cells[h.nofAllocs.value] >= 0
    ensures Allocate1(w, h, heap)
      == Ok((w.(cells := w.cells[h.nofAllocs.value := w.cells[h.nofAllocs.value] + 1]),
             h.(poolHead := Read(w.mem, h.poolHead)),
             h.poolHead))
  {
  }

  lemma PopPlacement(e: nat, n: nat, size: nat, regs: seq<Addr>, free: seq<Addr>, live: set<Addr>, cached: seq<Addr>)
    requires Placement(e, n, size, regs, free, live, cached) && free != [] && Distinct(free)
    ensures free[0] !in live
    ensures Placement(e, n, size, regs, free[1..], live + {free[0]}, cached)
  {
    assert free[0] in free;
    forall b | b in free[1..]
      ensures b in free && b != free[0]
    {
      var i :| 0 <= i < |free[1..]| && free[1..][i] == b;
      assert free[i + 1] == b;
    }
  }

  lemma PopCounts(w: World, h: Handle, regs: seq<Addr>, free: seq<Addr>, live: set<Addr>, cached: seq<Addr>)
    requires Counts(w, h, regs, free, live, cached) && free != [] && free[0] !in live
    ensures var na := h.nofAllocs.value;
      Counts(w.(cells := w.cells[na := w.cells[na] + 1]), h.(poolHead := Read(w.mem, h.poolHead)), regs, free[1..], live + {free[0]}, cached)
  {
    assert |live + {free[0]}| == |live| + 1;
  }

  /** The state after popping the head of a non-empty free list keeps the
      invariant, with that block now outstanding. */
  lemma PopInv(w: World, h: Handle, regs: seq<Addr>, free: seq<Addr>, live: set<Addr>, cached: seq<Addr>)
    requires Inv(w, h, regs, free, live, cached) && free != []
    ensures h.poolHead == free[0] && free[0] !in live
    ensures var na := h.nofAllocs.value;
      Inv(w.(cells := w.cells[na := w.cells[na] + 1]), h.(poolHead := Read(w.mem, h.poolHead)), regs, free[1..], live + {free[0]}, cached)
  {
    var na := h.nofAllocs.value;
    var w' := w.(cells := w.cells[na := w.cells[na] + 1]);
    var h' := h.(poolHead := Read(w.mem, h.poolHead));
    ChainDistinct(w.mem, h.poolHead, 0, free);
    PopPlacement(h.elsize, h.cfg.nofElements, ChunkSize(h), regs, free, live, cached);
    assert h'.cfg == h.cfg && h'.elsize == h.elsize && ChunkSize(h') == ChunkSize(h);
    assert Shape(w', h', regs, free[1..], cached);
    PopCounts(w, h, regs, free, live, cached);
    assert Inv(w', h', regs, free[1..], live + {free[0]}, cached);
  }

  /** With a non-empty free list, `allocate(1)` hands out the head of the
      free list, which was not outstanding, and touches nothing else. */
  lemma PopPreserves(w: World, h: Handle, regs: seq<Addr>, free: seq<Addr>, live: set<Addr>, cached: seq<Addr>, heap: Option<Addr>)
    requires Inv(w, h, regs, free, live, cached) && free != []
    requires heap.Some? ==> heap.value != Null
    ensures Allocate1(w, h, heap).Ok?
    ensures var (w', h', p) := Allocate1(w, h, heap).value;
      && p == free[0] && p !in live
      && Inv(w', h', regs, free[1..], live + {p}, cached)
  {
    PopStep(w, h, heap);
    PopInv(w, h, regs, free, live, cached);
  }

  //
  // Growth
  //

  /** `grow`, spelled out once the counters exist and a chunk was found. */
  lemma GrowStep(w: World, h: Handle, heap: Option<Addr>)
    requires h.cfg.Valid() && h.elsize > 0 && h.elsize >= h.cfg.ptrSize && (heap.Some? ==> heap.value != Null)
    requires h.refcount.Some? && h.nofAllocs.Some?
    requires AllocateChunk(w.mem, w.cache, ChunkSize(h), heap).Ok?
    ensures var (mem1, cache1, c) := AllocateChunk(w.mem, w.cache, ChunkSize(h), heap).value;
      Grow(w, h, heap) == Ok((World(PlainLinks(mem1[c + h.LinkOffset() := h.chunkHead], c, h.elsize, h.cfg.nofElements), w.cells, cache1),
                             h.(poolHead := c, chunkHead := c)))
  {
  }

  /** Threading a chunk at `c` and writing its trailing word touch no word
      outside the chunk. */
  lemma ThreadFrame(mem: Mem, c: Addr, e: nat, n: nat, ptrSize: nat, v: Addr, a: Addr)
    requires e > 0 && n >= 1 && ptrSize > 0
    requires !Within(a, c, e * n + ptrSize)
    ensures Read(PlainLinks(mem[c + e * n := v], c, e, n), a) == Read(mem, a)
  {
    if a in Blocks(c, e, n) {
      BlockWithin(a, c, e, n, ptrSize);
      assert false;
    }
    PlainLinksFrame(mem[c + e * n := v], c, e, n, a);
  }

  /** The lists after `grow` threads chunk `c` and links it in front of the
      registry `regs`, in memory `mem1` that differs from the old memory
      only inside `c`. */
  lemma GrowShapeMem(mem: Mem, mem1: Mem, c: Addr, e: nat, n: nat, ptrSize: nat,
                     oldHead: Addr, regs: seq<Addr>, cacheHead: Addr, cached': seq<Addr>)
    requires e > 0 && n >= 1 && ptrSize > 0 && c != Null
    requires Chain(mem, oldHead, e * n, regs)
    requires Chain(mem1, cacheHead, 0, cached')
    requires forall a: Addr :: !Within(a, c, e * n + ptrSize) ==> Read(mem1, a) == Read(mem, a)
    requires forall x :: x in regs + cached' ==> Apart(c, x, e * n + ptrSize)
    ensures var mem3 := PlainLinks(mem1[c + e * n := oldHead], c, e, n);
      && Chain(mem3, c, e * n, [c] + regs)
      && Chain(mem3, cacheHead, 0, cached')
      && Chain(mem3, c, 0, Blocks(c, e, n))
  {
    var size := e * n + ptrSize;
    var mem2 := mem1[c + e * n := oldHead];
    var mem3 := PlainLinks(mem2, c, e, n);
    forall x | x in regs
      ensures Read(mem3, x + e * n) == Read(mem, x + e * n)
    {
      assert x in regs + cached';
      assert !Within(x + e * n, c, size);
      ThreadFrame(mem1, c, e, n, ptrSize, oldHead, x + e * n);
    }
    ChainFrame(mem, mem3, oldHead, e * n, regs);
    TrailerNotBlock(c, e, n);
    PlainLinksFrame(mem2, c, e, n, c + n * e);
    assert ([c] + regs)[1..] == regs;
    forall x | x in cached'
      ensures Read(mem3, x) == Read(mem1, x)
    {
      assert x in regs + cached';
      ThreadFrame(mem1, c, e, n, ptrSize, oldHead, x);
    }
    ChainFrame(mem1, mem3, cacheHead, 0, cached');
    PlainLinksChain(mem2, c, e, n);
  }

  /** Placing a new chunk `c`, clear of all known chunks, at the head of the
      registry with all its blocks free. */
  lemma GrowPlacement(e: nat, n: nat, ptrSize: nat, size: nat, regs: seq<Addr>, live: set<Addr>, cached: seq<Addr>, c: Addr, cached': seq<Addr>)
    requires e > 0 && ptrSize > 0 && size == e * n + ptrSize
    requires Placement(e, n, size, regs, [], live, cached)
    requires forall x :: x in cached' ==> x in cached && x != c
    requires c !in regs
    requires forall x :: x in regs + cached' ==> Apart(c, x, size)
    ensures Placement(e, n, size, [c] + regs, Blocks(c, e, n), live, cached')
  {
    var regs' := [c] + regs;
    assert forall x :: x in regs' ==> x !in cached';
    assert ChunksApart(regs' + cached', size) by {
      forall x, y | x in regs' + cached' && y in regs' + cached' && x != y
        ensures Apart(x, y, size)
      {
        assert x == c || x in regs + cached';
        assert y == c || y in regs + cached';
        assert forall z :: z in regs + cached' ==> z in regs + cached;
      }
    }
    forall b | b in Blocks(c, e, n)
      ensures InChunks(b, regs', e, n)
    {
      assert c in regs';
    }
    forall b | b in live
      ensures InChunks(b, regs', e, n) && b !in Blocks(c, e, n)
    {
      var x := InChunksWithin(b, regs, e, n, ptrSize);
      assert x in regs' && x in regs + cached';
      ApartExcludes(b, x, c, size);
      forall i | 0 <= i < n
        ensures Blocks(c, e, n)[i] != b
      {
        BlockBounds(c, e, n, i);
      }
    }
  }

  /** The counters after `grow`: one more chunk registered, all of whose
      blocks are free. */
  lemma GrowCounts(w: World, h: Handle, w': World, h': Handle, regs: seq<Addr>, live: set<Addr>, cached: seq<Addr>, c: Addr, cached': seq<Addr>)
    requires Counts(w, h, regs, [], live, cached)
    requires w'.cells == w.cells
    requires h'.refcount == h.refcount && h'.nofAllocs == h.nofAllocs && h'.cfg == h.cfg
    requires w'.cache.nofFree == |cached'| && w'.cache.nofAllocated == |cached'| + |regs| + 1
    ensures Counts(w', h', [c] + regs, Blocks(c, h'.elsize, h'.cfg.nofElements), live, cached')
  {
    var n := h.cfg.nofElements;
    MulSucc(n, |regs|);
  }

  lemma MulSucc(n: nat, k: nat)
    ensures n * (k + 1) == n * k + n
  {
  }

  /** The chunk `grow` takes is new to the registry and clear of every other
      chunk that stays known. */
  lemma NewChunkApart(regs: seq<Addr>, cached: seq<Addr>, size: nat, heap: Option<Addr>, c: Addr, cached': seq<Addr>)
    requires size > 0
    requires ChunksApart(regs + cached, size) && (forall x :: x in regs ==> x !in cached)
    requires FreshChunk(heap, regs + cached, size) && Distinct(cached)
    requires cached != [] ==> c == cached[0] && cached' == cached[1..]
    requires cached == [] ==> heap.Some? && c == heap.value && cached' == cached
    ensures c !in regs
    ensures forall x :: x in cached' ==> x in cached && x != c
    ensures forall x :: x in regs + cached' ==> Apart(c, x, size)
  {
    forall x | x in cached'
      ensures x in cached && x != c
    {
      var i :| 0 <= i < |cached'| && cached'[i] == x;
      if cached != [] {
        assert cached[i + 1] == x;
      }
    }
    forall x | x in regs + cached'
      ensures Apart(c, x, size)
    {
      assert x in regs + cached;
      if cached != [] {
        assert c in regs + cached;
      }
    }
    if cached != [] {
      assert c in cached;
    } else {
      forall x | x in regs
        ensures x != c
      {
        assert x in regs + cached;
      }
    }
  }

  /** `grow` on an empty pool fails only when both the cache and the heap
      have no chunk to give. */
  lemma GrowSucceeds(w: World, h: Handle, regs: seq<Addr>, live: set<Addr>, cached: seq<Addr>, heap: Option<Addr>)
    requires Inv(w, h, regs, [], live, cached)
    requires heap.Some? ==> heap.value != Null
    ensures Grow(w, h, heap).Ok? <==> cached != [] || heap.Some?
  {
    if cached != [] {
      AllocateChunkPops(w.mem, w.cache, ChunkSize(h), heap, cached, |regs|);
    } else {
      AllocateChunkFresh(w.mem, w.cache, ChunkSize(h), heap, |regs|);
    }
  }

  /** `grow` on an empty pool registers one more chunk, from the cache when
      it has one and from the heap otherwise, and makes its blocks the free
      list. */
  lemma GrowPreserves(w: World, h: Handle, regs: seq<Addr>, live: set<Addr>, cached: seq<Addr>, heap: Option<Addr>)
    requires Inv(w, h, regs, [], live, cached)
    requires FreshChunk(heap, regs + cached, ChunkSize(h))
    requires cached != [] || heap.Some?
    ensures Grow(w, h, heap).Ok?
    ensures var (w', h') := Grow(w, h, heap).value;
      var c := if cached != [] then cached[0] else heap.value;
      && h'.chunkHead == c
      && Inv(w', h', [c] + regs, Blocks(c, h.elsize, h.cfg.nofElements), live, if cached != [] then cached[1..] else cached)
  {
    var size := ChunkSize(h);
    var cached' := if cached != [] then cached[1..] else cached;
    if cached != [] {
      AllocateChunkPops(w.mem, w.cache, size, heap, cached, |regs|);
    } else {
      AllocateChunkFresh(w.mem, w.cache, size, heap, |regs|);
    }
    var (mem1, cache1, c) := AllocateChunk(w.mem, w.cache, size, heap).value;
    ChainDistinct(w.mem, w.cache.head, 0, cached);
    NewChunkApart(regs, cached, size, heap, c, cached');
    forall a: Addr | !Within(a, c, size)
      ensures Read(mem1, a) == Read(w.mem, a)
    {
    }
    GrowInv(w, h, regs, live, cached, heap, cached');
  }

  /** The state `grow` leaves once it has taken chunk `c`, leaving memory
      `mem1` and cache `cache1`, satisfies the invariant with `c` registered
      and all its blocks free. */
  lemma GrowInv(w: World, h: Handle, regs: seq<Addr>, live: set<Addr>, cached: seq<Addr>, heap: Option<Addr>, cached': seq<Addr>)
    requires Inv(w, h, regs, [], live, cached) && (heap.Some? ==> heap.value != Null)
    requires AllocateChunk(w.mem, w.cache, ChunkSize(h), heap).Ok?
    requires var (mem1, cache1, c) := AllocateChunk(w.mem, w.cache, ChunkSize(h), heap).value;
      && CacheInv(mem1, cache1, cached', |regs| + 1)
      && (forall a: Addr :: !Within(a, c, ChunkSize(h)) ==> Read(mem1, a) == Read(w.mem, a))
      && c !in regs
      && (forall x :: x in cached' ==> x in cached && x != c)
      && (forall x :: x in regs + cached' ==> Apart(c, x, ChunkSize(h)))
    ensures Grow(w, h, heap).Ok?
    ensures var (w', h') := Grow(w, h, heap).value;
      var c := AllocateChunk(w.mem, w.cache, ChunkSize(h), heap).value.2;
      && h'.chunkHead == c
      && Inv(w', h', [c] + regs, Blocks(c, h.elsize, h.cfg.nofElements), live, cached')
  {
    var (mem1, cache1, c) := AllocateChunk(w.mem, w.cache, ChunkSize(h), heap).value;
    GrowStep(w, h, heap);
    var size := ChunkSize(h);
    var e := h.elsize;
    var n := h.cfg.nofElements;
    var w' := World(PlainLinks(mem1[c + h.LinkOffset() := h.chunkHead], c, e, n), w.cells, cache1);
    var h' := h.(poolHead := c, chunkHead := c);
    assert h'.cfg == h.cfg && h'.elsize == h.elsize && ChunkSize(h') == size == e * n + h.cfg.ptrSize;
    assert Shape(w', h', [c] + regs, Blocks(c, e, n), cached') by {
      GrowShapeMem(w.mem, mem1, c, e, n, h.cfg.ptrSize, h.chunkHead, regs, cache1.head, cached');
    }
    GrowPlacement(e, n, h.cfg.ptrSize, size, regs, live, cached, c, cached');
    GrowCounts(w, h, w', h', regs, live, cached, c, cached');
  }

  //
  // Allocation
  //

  /** The abstract state after `allocate(1)`: registered chunks, free list
      and cached chunks. */
  ghost function AfterAllocate(h: Handle, regs: seq<Addr>, free: seq<Addr>, cached: seq<Addr>, heap: Option<Addr>): (seq<Addr>, seq<Addr>, seq<Addr>)
    requires h.cfg.Valid()
    requires free != [] || cached != [] || heap.Some?
  {
    if free != [] then (regs, free[1..], cached)
    else
      var c := if cached != [] then cached[0] else heap.value;
      ([c] + regs, Blocks(c, h.elsize, h.cfg.nofElements)[1..], if cached != [] then cached[1..] else cached)
  }

  /** `allocate(1)` on an empty pool is `grow` followed by `allocate(1)` on
      the grown pool. */
  lemma GrowThenPop(w: World, h: Handle, heap: Option<Addr>)
    requires h.cfg.Valid() && h.elsize > 0 && h.elsize >= h.cfg.ptrSize && (heap.Some? ==> heap.value != Null)
    requires h.poolHead == Null && Grow(w, h, heap).Ok?
    ensures var (w1, h1) := Grow(w, h, heap).value;
      h1.cfg == h.cfg && h1.elsize == h.elsize && Allocate1(w, h, heap) == Allocate1(w1, h1, heap)
  {
  }

  lemma GrowFails(w: World, h: Handle, heap: Option<Addr>)
    requires h.cfg.Valid() && h.elsize > 0 && h.elsize >= h.cfg.ptrSize && (heap.Some? ==> heap.value != Null)
    requires h.poolHead == Null && Grow(w, h, heap).Err?
    ensures Allocate1(w, h, heap).Err?
  {
  }

  /** `allocate(1)` preserves the invariant. The block it returns was not
      outstanding; it is the head of the free list when that is non-empty,
      else the first block of the chunk `grow` takes from the cache or, when
      the cache is empty, from the heap. It fails only when the free list,
      the cache and the heap are all empty. */
  lemma AllocatePreserves(w: World, h: Handle, regs: seq<Addr>, free: seq<Addr>, live: set<Addr>, cached: seq<Addr>, heap: Option<Addr>)
    requires Inv(w, h, regs, free, live, cached)
    requires FreshChunk(heap, regs + cached, ChunkSize(h))
    ensures Allocate1(w, h, heap).Ok? <==> free != [] || cached != [] || heap.Some?
    ensures Allocate1(w, h, heap).Ok? ==>
      var (w', h', p) := Allocate1(w, h, heap).value;
      var (regs', free', cached') := AfterAllocate(h, regs, free, cached, heap);
      && p !in live
      && NofAllocs(w', h') == NofAllocs(w, h) + 1
      && Inv(w', h', regs', free', live + {p}, cached')
  {
    if free != [] {
      PopPreserves(w, h, regs, free, live, cached, heap);
    } else {
      GrowSucceeds(w, h, regs, live, cached, heap);
      if Grow(w, h, heap).Ok? {
        GrowPreserves(w, h, regs, live, cached, heap);
        var (w1, h1) := Grow(w, h, heap).value;
        var c := if cached != [] then cached[0] else heap.value;
        var cached1 := if cached != [] then cached[1..] else cached;
        PopPreserves(w1, h1, [c] + regs, Blocks(c, h.elsize, h.cfg.nofElements), live, cached1, heap);
        GrowThenPop(w, h, heap);
      } else {
        GrowFails(w, h, heap);
      }
    }
  }

  /** Two successive allocations return different blocks. */
  lemma AllocationsDistinct(w: World, h: Handle, regs: seq<Addr>, free: seq<Addr>, live: set<Addr>, cached: seq<Addr>,
                            heap1: Option<Addr>, heap2: Option<Addr>)
    requires Inv(w, h, regs, free, live, cached)
    requires FreshChunk(heap1, regs + cached, ChunkSize(h))
    requires Allocate1(w, h, heap1).Ok?
    requires var (regs', _, cached') := AfterAllocate(h, regs, free, cached, heap1);
      FreshChunk(heap2, regs' + cached', ChunkSize(h))
    requires var (w1, h1, _) := Allocate1(w, h, heap1).value; Allocate1(w1, h1, heap2).Ok?
    ensures var (w1, h1, p1) := Allocate1(w, h, heap1).value;
      p1 != Allocate1(w1, h1, heap2).value.2
  {
    AllocatePreserves(w, h, regs, free, live, cached, heap1);
    var (w1, h1, p1) := Allocate1(w, h, heap1).value;
    var (regs', free', cached') := AfterAllocate(h, regs, free, cached, heap1);
    assert ChunkSize(h1) == ChunkSize(h);
    AllocatePreserves(w1, h1, regs', free', live + {p1}, cached', heap2);
  }

  //
  // Deallocation
  //

  /** `deallocate(p, 1)` of a block inside a registered chunk, spelled out. */
  lemma PushStep(w: World, h: Handle, p: Addr, regs: seq<Addr>)
    requires h.cfg.Valid() && h.elsize >= h.cfg.ptrSize && Chain(w.mem, h.chunkHead, h.LinkOffset(), regs)
    requires InSomeChunk(p, regs, h.elsize, h.cfg.nofElements)
    requires h.nofAllocs.Some? && h.nofAllocs.value in w.cells && w.cells[h.nofAllocs.value] >= 1
    ensures Deallocate1(w, h, p, regs)
      == Ok((World(w.mem[p := h.poolHead], w.cells[h.nofAllocs.value := w.cells[h.nofAllocs.value] - 1], w.cache),
             h.(poolHead := p)))
  {
  }

  lemma PushPlacement(e: nat, n: nat, size: nat, regs: seq<Addr>, free: seq<Addr>, live: set<Addr>, cached: seq<Addr>, p: Addr)
    requires Placement(e, n, size, regs, free, live, cached) && p in live
    ensures Placement(e, n, size, regs, [p] + free, live - {p}, cached)
  {
  }

  /** An outstanding block's first word is no registry link word and no
      cached chunk's link word. */
  lemma PushTouchesNoLink(e: nat, n: nat, ptrSize: nat, regs: seq<Addr>, free: seq<Addr>, live: set<Addr>, cached: seq<Addr>, p: Addr)
    requires e > 0 && ptrSize > 0
    requires Placement(e, n, e * n + ptrSize, regs, free, live, cached) && p in live
    ensures forall x :: x in regs ==> p != x + e * n
    ensures forall d :: d in cached ==> p != d
    ensures p !in free
  {
    var c := InChunksWithin(p, regs, e, n, ptrSize);
    forall x | x in regs
      ensures p != x + e * n
    {
      if x != c {
        assert x in regs + cached && c in regs + cached;
      }
      BlockIsNoLinkWord(p, c, x, e, n, ptrSize);
    }
    forall d | d in cached
      ensures p != d
    {
      assert d in regs + cached && c in regs + cached && d != c;
      BlockIsNoLinkWord(p, c, d, e, n, ptrSize);
    }
  }

  /** Pushing `p` onto the free list keeps the registry and the cache
      intact when `p` is none of their link words. */
  lemma PushShapeMem(mem: Mem, p: Addr, chunkHead: Addr, off: nat, regs: seq<Addr>,
                     cacheHead: Addr, cached: seq<Addr>, poolHead: Addr, free: seq<Addr>)
    requires p != Null
    requires Chain(mem, chunkHead, off, regs) && Chain(mem, cacheHead, 0, cached) && Chain(mem, poolHead, 0, free)
    requires forall x :: x in regs ==> p != x + off
    requires forall d :: d in cached ==> p != d
    requires p !in free
    ensures var mem' := mem[p := poolHead];
      && Chain(mem', chunkHead, off, regs)
      && Chain(mem', cacheHead, 0, cached)
      && Chain(mem', p, 0, [p] + free)
  {
    var mem' := mem[p := poolHead];
    ChainFrame(mem, mem', chunkHead, off, regs);
    ChainFrame(mem, mem', cacheHead, 0, cached);
    ChainFrame(mem, mem', poolHead, 0, free);
    assert ([p] + free)[1..] == free;
  }

  /** Pushing an outstanding block `p` on the free list and uncounting it
      keeps the invariant, with `p` no longer outstanding. */
  lemma PushInv(w: World, h: Handle, regs: seq<Addr>, free: seq<Addr>, live: set<Addr>, cached: seq<Addr>, p: Addr)
    requires Inv(w, h, regs, free, live, cached) && p in live
    ensures InSomeChunk(p, regs, h.elsize, h.cfg.nofElements)
    ensures w.cells[h.nofAllocs.value] >= 1
    ensures var na := h.nofAllocs.value;
      Inv(World(w.mem[p := h.poolHead], w.cells[na := w.cells[na] - 1], w.cache), h.(poolHead := p),
          regs, [p] + free, live - {p}, cached)
  {
    var e := h.elsize;
    var n := h.cfg.nofElements;
    var off := h.LinkOffset();
    var na := h.nofAllocs.value;
    var w' := World(w.mem[p := h.poolHead], w.cells[na := w.cells[na] - 1], w.cache);
    var h' := h.(poolHead := p);
    assert h'.cfg == h.cfg && h'.elsize == h.elsize && ChunkSize(h') == ChunkSize(h) && h'.LinkOffset() == off;
    assert InSomeChunk(p, regs, e, n) && p != Null by {
      var c := InChunksWithin(p, regs, e, n, h.cfg.ptrSize);
      var i :| 0 <= i < |regs| && regs[i] == c;
      ChainNonNull(w.mem, h.chunkHead, off, regs);
    }
    assert Shape(w', h', regs, [p] + free, cached) by {
      PushTouchesNoLink(e, n, h.cfg.ptrSize, regs, free, live, cached, p);
      PushShapeMem(w.mem, p, h.chunkHead, off, regs, w.cache.head, cached, h.poolHead, free);
    }
    PushPlacement(e, n, ChunkSize(h), regs, free, live, cached, p);
    PushCounts(w, h, regs, free, live, cached, p);
  }

  lemma PushCounts(w: World, h: Handle, regs: seq<Addr>, free: seq<Addr>, live: set<Addr>, cached: seq<Addr>, p: Addr)
    requires Counts(w, h, regs, free, live, cached) && p in live
    ensures var na := h.nofAllocs.value;
      Counts(World(w.mem[p := h.poolHead], w.cells[na := w.cells[na] - 1], w.cache), h.(poolHead := p),
             regs, [p] + free, live - {p}, cached)
  {
    assert |live - {p}| == |live| - 1;
  }

  /** `deallocate(p, 1)` of an outstanding block preserves the invariant:
      the block becomes the head of the free list and the allocation count
      drops by one without going negative. */
  lemma DeallocatePreserves(w: World, h: Handle, regs: seq<Addr>, free: seq<Addr>, live: set<Addr>, cached: seq<Addr>, p: Addr)
    requires Inv(w, h, regs, free, live, cached) && p in live
    ensures Deallocate1(w, h, p, regs).Ok?
    ensures var (w', h') := Deallocate1(w, h, p, regs).value;
      && NofAllocs(w', h') == NofAllocs(w, h) - 1 >= 0
      && Inv(w', h', regs, [p] + free, live - {p}, cached)
  {
    PushInv(w, h, regs, free, live, cached, p);
    PushStep(w, h, p, regs);
  }

  //
  // Destruction
  //

  /** The loop of `clean` pushes the registry's chunks onto the cache one by
      one, keeping the cache's invariant with the chunks moved from
      outside the cache onto its stack. */
  lemma {:induction false} CleanFromPushes(mem: Mem, cache: Cache, ptr: Addr, off: nat, regs: seq<Addr>, cached: seq<Addr>, outside: nat)
    requires Chain(mem, ptr, off, regs) && NoAlias(regs, off)
    requires CacheInv(mem, cache, cached, outside) && |regs| <= outside
    requires forall c :: c in regs ==> c !in cached
    ensures CleanFrom(mem, cache, ptr, off, regs).Ok?
    ensures var (mem', cache') := CleanFrom(mem, cache, ptr, off, regs).value;
      CacheInv(mem', cache', RevPrepend(regs, cached), outside - |regs|)
    decreases |regs|
  {
    if regs != [] {
      DeallocateChunkPushes(mem, cache, ptr, cached, outside);
      var (mem1, cache1) := DeallocateChunk(mem, cache, ptr).value;
      var next := Read(mem, ptr + off);
      assert forall x :: x in regs[1..] ==> x in regs;
      assert ptr in regs;
      ChainFrame(mem, mem1, next, off, regs[1..]);
      ChainDistinct(mem, ptr, off, regs);
      forall x | x in regs[1..]
        ensures x != regs[0]
      {
        var j :| 0 <= j < |regs[1..]| && regs[1..][j] == x;
        assert regs[j + 1] == x;
      }
      CleanFromPushes(mem1, cache1, next, off, regs[1..], [ptr] + cached, outside - 1);
    }
  }

  /** Destroying the only handle of a group retires its whole registry to
      the cache, which then holds every chunk ever taken from the heap, and
      deletes both counters. */
  lemma DestroyRetiresAll(w: World, h: Handle, regs: seq<Addr>, free: seq<Addr>, live: set<Addr>, cached: seq<Addr>)
    requires Inv(w, h, regs, free, live, cached)
    ensures h.Registry(w.mem, regs)
    ensures Destroy(w, h, regs).Ok?
    ensures var w' := Destroy(w, h, regs).value;
      && CacheInv(w'.mem, w'.cache, RevPrepend(regs, cached), 0)
      && w'.cache.nofFree == w'.cache.nofAllocated == w.cache.nofAllocated
      && h.refcount.value !in w'.cells && h.nofAllocs.value !in w'.cells
  {
    ApartNoAlias(regs, cached, h.elsize, h.cfg.nofElements, h.cfg.ptrSize);
    CleanFromPushes(w.mem, w.cache, h.chunkHead, h.LinkOffset(), regs, cached, |regs|);
  }

  /** `release` of the last reference, spelled out once `clean` succeeds. */
  lemma ReleaseStep(w: World, h: Handle, regs: seq<Addr>)
    requires h.Registry(w.mem, regs)
    requires h.refcount.Some? && h.refcount.value in w.cells && w.cells[h.refcount.value] == 1
    requires h.nofAllocs.Some?
    requires CleanFrom(w.mem, w.cache, h.chunkHead, h.LinkOffset(), regs).Ok?
    ensures var (mem', cache') := CleanFrom(w.mem, w.cache, h.chunkHead, h.LinkOffset(), regs).value;
      Release(w, h, regs)
        == Ok((World(mem', w.cells[h.refcount.value := 1][h.nofAllocs.value := 0], cache'), h.(poolHead := Null, chunkHead := Null)))
  {
  }

  /** Releasing the only handle of a group retires its chunks to the cache
      like the destructor, but keeps the counters, so the handle starts over
      with an empty pool and the invariant holds again. */
  lemma ReleaseRestarts(w: World, h: Handle, regs: seq<Addr>, free: seq<Addr>, live: set<Addr>, cached: seq<Addr>)
    requires Inv(w, h, regs, free, live, cached)
    ensures h.Registry(w.mem, regs)
    ensures Release(w, h, regs).Ok?
    ensures var (w', h') := Release(w, h, regs).value;
      Inv(w', h', [], [], {}, RevPrepend(regs, cached))
  {
    ApartNoAlias(regs, cached, h.elsize, h.cfg.nofElements, h.cfg.ptrSize);
    var xs := RevPrepend(regs, cached);
    CleanFromPushes(w.mem, w.cache, h.chunkHead, h.LinkOffset(), regs, cached, |regs|);
    var (mem', cache') := CleanFrom(w.mem, w.cache, h.chunkHead, h.LinkOffset(), regs).value;
    ReleaseStep(w, h, regs);
    var rc := h.refcount.value;
    var na := h.nofAllocs.value;
    var w' := World(mem', w.cells[rc := 1][na := 0], cache');
    var h' := h.(poolHead := Null, chunkHead := Null);
    assert h'.cfg == h.cfg && h'.elsize == h.elsize && ChunkSize(h') == ChunkSize(h);
    assert Shape(w', h', [], [], xs);
    assert Placement(h.elsize, h.cfg.nofElements, ChunkSize(h), [], [], {}, xs) by {
      assert forall c :: c in [] + xs ==> c in regs + cached;
    }
    assert Counts(w', h', [], [], {}, xs);
  }

  /** After the last handle is gone, a new handle of the same instantiation
      (same configuration and rounded element size) takes its first chunk
      from the cache and not from the heap. */
  lemma ReuseAfterDestroy(w: World, h: Handle, regs: seq<Addr>, free: seq<Addr>, live: set<Addr>, cached: seq<Addr>,
                          sizeofT: nat, rcCell: Option<Addr>, naCell: Option<Addr>, heap: Option<Addr>)
    requires Inv(w, h, regs, free, live, cached) && regs != []
    requires sizeofT > 0 && NextMultiple(sizeofT, h.cfg.alignment) == h.elsize
    requires heap.Some? ==> heap.value != Null
    requires h.Registry(w.mem, regs) && Destroy(w, h, regs).Ok?
    requires FreshCells(Destroy(w, h, regs).value, rcCell, naCell) && rcCell.Some? && naCell.Some?
    ensures var w1 := Destroy(w, h, regs).value;
      && Construct(w1, h.cfg, sizeofT, rcCell, naCell).Ok?
      && var (w2, h2) := Construct(w1, h.cfg, sizeofT, rcCell, naCell).value;
      && Allocate1(w2, h2, heap).Ok?
      && Allocate1(w2, h2, heap).value.0.cache.nofAllocated == w.cache.nofAllocated
  {
    DestroyRetiresAll(w, h, regs, free, live, cached);
    var w1 := Destroy(w, h, regs).value;
    var (w2, h2) := Construct(w1, h.cfg, sizeofT, rcCell, naCell).value;
    var xs := RevPrepend(regs, cached);
    assert regs[0] in xs;
    AllocateChunkPops(w2.mem, w2.cache, ChunkSize(h2), heap, xs, 0);
  }
}

=== FILE: sharing.dfy ===
/** Handles that share counters: the converting constructor, the
    implicitly generated copy constructor, and what a handle's private copy
    of the two list heads means once the group is shared. */
module Sharing {
  import opened Wrappers
  import opened Memory
  import opened ElementSize
  import opened FbAlloc

  /** The observers of a fresh handle: the rounded element size, a chunk big
      enough for `nof_elements` objects of the type plus the registry link,
      one reference and no allocation. */
  lemma ObserversAfterConstruct(w: World, cfg: Config, sizeofT: nat, rcCell: Option<Addr>, naCell: Option<Addr>)
    requires cfg.Valid() && sizeofT > 0 && FreshCells(w, rcCell, naCell)
    requires rcCell.Some? && naCell.Some?
    ensures Construct(w, cfg, sizeofT, rcCell, naCell).Ok?
    ensures var (w', h) := Construct(w, cfg, sizeofT, rcCell, naCell).value;
      && MaxSize(h) == ElSize(h) == NextMultiple(sizeofT, cfg.alignment)
      && sizeofT <= ElSize(h) < sizeofT + cfg.alignment
      && ChunkSize(h) == ElSize(h) * cfg.nofElements + cfg.ptrSize >= sizeofT * cfg.nofElements + cfg.ptrSize
      && RefCount(w', h) == 1 && NofAllocs(w', h) == 0
  {
    var (w', h) := Construct(w, cfg, sizeofT, rcCell, naCell).value;
    NextMultipleIsRounded(sizeofT, cfg.alignment);
    RoundedUnique(h.elsize, NextMultiple(sizeofT, cfg.alignment), sizeofT, cfg.alignment);
    MulMono(sizeofT, h.elsize, cfg.nofElements);
  }

  /** The observers of a handle built by the converting constructor from
      `src`. With an equal rounded size both handles read the same two
      cells, so they report the same counts, one reference more than
      before. Otherwise the handle has counters of its own, and a counter
      whose cell was refused reads as 0. */
  lemma ObserversAfterConvert(w: World, cfg: Config, sizeofT: nat, src: Handle, rcCell: Option<Addr>, naCell: Option<Addr>)
    requires cfg.Valid() && sizeofT > 0 && src.cfg == cfg && FreshCells(w, rcCell, naCell)
    requires ConvertCtor(w, cfg, sizeofT, src, rcCell, naCell).Ok?
    ensures var (w', h) := ConvertCtor(w, cfg, sizeofT, src, rcCell, naCell).value;
      && MaxSize(h) == ElSize(h) == NextMultiple(sizeofT, cfg.alignment)
      && ChunkSize(h) == ElSize(h) * cfg.nofElements + cfg.ptrSize
      && (h.refcount.Some? ==> h.refcount.value in w'.cells)
      && (ElSize(h) == ElSize(src) ==>
            && RefCount(w', h) == RefCount(w', src) == RefCount(w, src) + 1
            && (src.nofAllocs.Some? && src.nofAllocs.value in w.cells ==>
                  && h.nofAllocs.value in w'.cells
                  && NofAllocs(w', h) == NofAllocs(w', src)))
      && (ElSize(h) != ElSize(src) ==>
            && (h.nofAllocs.Some? ==> h.nofAllocs.value in w'.cells)
            && RefCount(w', h) == (if rcCell.None? then 0 else 1)
            && NofAllocs(w', h) == 0)
  {
    var (w', h) := ConvertCtor(w, cfg, sizeofT, src, rcCell, naCell).value;
    NextMultipleIsRounded(sizeofT, cfg.alignment);
    RoundedUnique(h.elsize, NextMultiple(sizeofT, cfg.alignment), sizeofT, cfg.alignment);
  }

  /** Returning a block and allocating again gives the same block back and
      restores the handle and the counters: the pool is a stack. */
  lemma DeallocThenAllocate(w: World, h: Handle, p: Addr, regs: seq<Addr>, heap: Option<Addr>)
    requires h.cfg.Valid() && h.elsize > 0 && h.elsize >= h.cfg.ptrSize && (heap.Some? ==> heap.value != Null)
    requires Chain(w.mem, h.chunkHead, h.LinkOffset(), regs)
    requires Deallocate1(w, h, p, regs).Ok?
    ensures var (w1, h1) := Deallocate1(w, h, p, regs).value;
      && Allocate1(w1, h1, heap).Ok?
      && var (w2, h2, q) := Allocate1(w1, h1, heap).value;
      && q == p && h2 == h
      && w2.cells == w.cells && w2.cache == w.cache && w2.mem == w.mem[p := h.poolHead]
  {
    var (w1, h1) := Deallocate1(w, h, p, regs).value;
    var i :| 0 <= i < |regs| && regs[i] <= p <= regs[i] + (h.cfg.nofElements - 1) * h.elsize;
    ChainNonNull(w.mem, h.chunkHead, h.LinkOffset(), regs);
    assert regs[i] in regs;
    var na := h.nofAllocs.value;
    var (w2, h2, q) := Allocate1(w1, h1, heap).value;
    assert w2.cells == w1.cells[na := w1.cells[na] + 1];
  }

  //
  // Sharing by value (fb_alloc.h:178-183)
  //

  /** A handle built from `src` with the same rounded size starts with
      `src`'s heads, but they are copies: a chunk `src` grows afterwards is
      not in the new handle's registry, and returning a block of it through
      the new handle fails the debug-build check. */
  lemma SharedHandleMissesGrowth(w: World, cfg: Config, sizeofT: nat, rcCell: Option<Addr>, naCell: Option<Addr>, c: Addr)
    requires cfg.Valid() && sizeofT > 0 && FreshCells(w, rcCell, naCell)
    requires NextMultiple(sizeofT, cfg.alignment) >= cfg.ptrSize
    requires rcCell.Some? && naCell.Some? && c != Null && w.cache.head == Null
    ensures Construct(w, cfg, sizeofT, rcCell, naCell).Ok?
    ensures var (w1, a) := Construct(w, cfg, sizeofT, rcCell, naCell).value;
      && ConvertCtor(w1, cfg, sizeofT, a, None, None).Ok?
      && var (w2, b) := ConvertCtor(w1, cfg, sizeofT, a, None, None).value;
      && Allocate1(w2, a, Some(c)).Ok?
      && var (w3, a', p) := Allocate1(w2, a, Some(c)).value;
      && p == c && a'.chunkHead == c && b.chunkHead == Null
      && Deallocate1(w3, b, p, []) == Err(AssertionFailure)
  {
    var (w1, a) := Construct(w, cfg, sizeofT, rcCell, naCell).value;
    NextMultipleIsRounded(sizeofT, cfg.alignment);
    RoundedUnique(a.elsize, NextMultiple(sizeofT, cfg.alignment), sizeofT, cfg.alignment);
    var (w2, b) := ConvertCtor(w1, cfg, sizeofT, a, None, None).value;
    assert w2.cells == w1.cells[a.refcount.value := 2];
    assert w2.mem == w1.mem && w2.cache == w1.cache;
  }

  /** Two handles sharing a non-empty pool by value both hand out the pool's
      head block: the same block is given out twice. */
  lemma SharedHandlesHandOutTwice(w: World, cfg: Config, sizeofT: nat, a: Handle, heap: Option<Addr>)
    requires cfg.Valid() && sizeofT > 0 && a.cfg == cfg && a.elsize > 0 && a.elsize >= cfg.ptrSize
    requires NextMultiple(sizeofT, cfg.alignment) == a.elsize
    requires heap.Some? ==> heap.value != Null
    requires a.poolHead != Null
    requires a.refcount.Some? && a.nofAllocs.Some? && a.refcount.value != a.nofAllocs.value
    requires a.refcount.value in w.cells && w.cells[a.refcount.value] >= 1
    requires a.nofAllocs.value in w.cells && w.cells[a.nofAllocs.value] >= 0
    ensures ConvertCtor(w, cfg, sizeofT, a, None, None).Ok?
    ensures var (w1, b) := ConvertCtor(w, cfg, sizeofT, a, None, None).value;
      && Allocate1(w1, a, heap).Ok?
      && var (w2, _, p) := Allocate1(w1, a, heap).value;
      && Allocate1(w2, b, heap).Ok?
      && Allocate1(w2, b, heap).value.2 == p == a.poolHead
  {
    var (w1, b) := ConvertCtor(w, cfg, sizeofT, a, None, None).value;
    assert w1.cells == w.cells[a.refcount.value := w.cells[a.refcount.value] + 1];
    var (w2, a2, p) := Allocate1(w1, a, heap).value;
    assert w2.cells == w1.cells[a.nofAllocs.value := w1.cells[a.nofAllocs.value] + 1];
  }

  //
  // Copying a handle of the same type (fb_alloc.h:144-198)
  //

  /** The copy constructor the compiler generates, since a constructor
      template is never a copy constructor: a member-wise copy that shares
      the counters without counting the new reference. */
  function ImplicitCopy(w: World, h: Handle): (World, Handle) {
    (w, h)
  }

  /** With the generated copy, the first of the two destructors finds the
      count at 1, retires the pool and deletes the counters; the second
      then reads a deleted counter. */
  lemma ImplicitCopyDestroysTwice(w: World, cfg: Config, sizeofT: nat, rcCell: Option<Addr>, naCell: Option<Addr>)
    requires cfg.Valid() && sizeofT > 0 && FreshCells(w, rcCell, naCell)
    requires rcCell.Some? && naCell.Some?
    requires w.cache.nofFree <= w.cache.nofAllocated
    ensures Construct(w, cfg, sizeofT, rcCell, naCell).Ok?
    ensures var (w1, a) := Construct(w, cfg, sizeofT, rcCell, naCell).value;
      var (w2, b) := ImplicitCopy(w1, a);
      && Destroy(w2, b, []).Ok?
      && Destroy(Destroy(w2, b, []).value, a, []) == Err(Undefined)
  {
  }

  /** The copy constructor as the comment above the template intends it: a
      same-type copy through the sharing branch, which counts the new
      reference, so the two destructors together retire the pool once and
      leave no counter behind. */
  lemma CountedCopyDestroysOnce(w: World, cfg: Config, sizeofT: nat, rcCell: Option<Addr>, naCell: Option<Addr>)
    requires cfg.Valid() && sizeofT > 0 && FreshCells(w, rcCell, naCell)
    requires rcCell.Some? && naCell.Some?
    requires w.cache.nofFree <= w.cache.nofAllocated
    ensures Construct(w, cfg, sizeofT, rcCell, naCell).Ok?
    ensures var (w1, a) := Construct(w, cfg, sizeofT, rcCell, naCell).value;
      && ConvertCtor(w1, cfg, sizeofT, a, None, None).Ok?
      && var (w2, b) := ConvertCtor(w1, cfg, sizeofT, a, None, None).value;
      && RefCount(w2, b) == 2
      && Destroy(w2, b, []).Ok?
      && var w3 := Destroy(w2, b, []).value;
      && RefCount(w3, a) == 1
      && Destroy(w3, a, []).Ok?
      && var w4 := Destroy(w3, a, []).value;
      && rcCell.value !in w4.cells && naCell.value !in w4.cells
      && w4.cache == w.cache
  {
    var (w1, a) := Construct(w, cfg, sizeofT, rcCell, naCell).value;
    NextMultipleIsRounded(sizeofT, cfg.alignment);
    RoundedUnique(a.elsize, NextMultiple(sizeofT, cfg.alignment), sizeofT, cfg.alignment);
  }
}

=== FILE: threading.dfy ===
/** Threading the blocks of a chunk into a free list (fb_alloc.h `grow`,
    lines 248-286): block i links to block i+1 and the last block links to
    null. Two versions exist in the source: the plain loop that is compiled
    out, and the unrolled loop that is compiled in. */
module Threading {
  import opened Memory

  /** Memory after the first `k` blocks of size `e` from `start` have each
      been linked to their successor. */
  function ThreadLinks(mem: Mem, start: Addr, e: nat, k: nat): Mem
    decreases k
  {
    if k == 0 then mem
    else ThreadLinks(mem, start, e, k - 1)[start + (k - 1) * e := start + k * e]
  }

  /** The free-list threading of a chunk of `n` blocks: `n - 1` links and a
      null in the last block. */
  function PlainLinks(mem: Mem, start: Addr, e: nat, n: nat): Mem
    requires n >= 1
  {
    ThreadLinks(mem, start, e, n - 1)[start + (n - 1) * e := Null]
  }

  lemma {:induction false} ThreadLinksLinked(mem: Mem, start: Addr, e: nat, k: nat, i: nat)
    requires e > 0 && i < k
    ensures Read(ThreadLinks(mem, start, e, k), start + i * e) == start + (i + 1) * e
    decreases k
  {
    if i < k - 1 {
      ThreadLinksLinked(mem, start, e, k - 1, i);
      MulStrictMono(i, k - 1, e);
    }
  }

  lemma {:induction false} ThreadLinksFrame(mem: Mem, start: Addr, e: nat, k: nat, a: Addr)
    requires a !in Blocks(start, e, k)
    ensures Read(ThreadLinks(mem, start, e, k), a) == Read(mem, a)
    decreases k
  {
    if k > 0 {
      assert Blocks(start, e, k)[k - 1] == start + (k - 1) * e;
      var shorter := Blocks(start, e, k - 1);
      forall j | 0 <= j < k - 1
        ensures shorter[j] != a
      {
        assert shorter[j] == Blocks(start, e, k)[j];
      }
      ThreadLinksFrame(mem, start, e, k - 1, a);
    }
  }

  /** Only the first words of the chunk's blocks are written. */
  lemma PlainLinksFrame(mem: Mem, start: Addr, e: nat, n: nat, a: Addr)
    requires n >= 1 && a !in Blocks(start, e, n)
    ensures Read(PlainLinks(mem, start, e, n), a) == Read(mem, a)
  {
    assert Blocks(start, e, n)[n - 1] == start + (n - 1) * e;
    var shorter := Blocks(start, e, n - 1);
    forall j | 0 <= j < n - 1
      ensures shorter[j] != a
    {
      assert shorter[j] == Blocks(start, e, n)[j];
    }
    ThreadLinksFrame(mem, start, e, n - 1, a);
  }

  lemma {:induction false} PlainLinksChainFrom(mem: Mem, start: Addr, e: nat, n: nat, j: nat)
    requires n >= 1 && e > 0 && start > 0 && j < n
    ensures Chain(PlainLinks(mem, start, e, n), start + j * e, 0, Blocks(start, e, n)[j..])
    decreases n - j
  {
    var m := PlainLinks(mem, start, e, n);
    var bs := Blocks(start, e, n);
    if j == n - 1 {
      assert Read(m, start + j * e) == Null;
      assert bs[j..][1..] == [];
    } else {
      MulStrictMono(j, n - 1, e);
      ThreadLinksLinked(mem, start, e, n - 1, j);
      assert Read(m, start + j * e) == start + (j + 1) * e;
      PlainLinksChainFrom(mem, start, e, n, j + 1);
      assert bs[j..][1..] == bs[j + 1..];
    }
  }

  /** After threading, the chunk's blocks form a free list in address order
      that ends in null. */
  lemma PlainLinksChain(mem: Mem, start: Addr, e: nat, n: nat)
    requires n >= 1 && e > 0 && start > 0
    ensures Chain(PlainLinks(mem, start, e, n), start, 0, Blocks(start, e, n))
  {
    PlainLinksChainFrom(mem, start, e, n, 0);
    assert Blocks(start, e, n)[0..] == Blocks(start, e, n);
  }

  /** The plain loop (fb_alloc.h:252-259): link every block below the last
      one to its successor, then store null in the last block. */
  method LinkChunk(mem: Mem, start: Addr, e: nat, n: nat) returns (m: Mem)
    requires start > 0 && e > 0 && n >= 1
    ensures Chain(m, start, 0, Blocks(start, e, n))
    ensures forall a :: a !in Blocks(start, e, n) ==> Read(m, a) == Read(mem, a)
    ensures m == PlainLinks(mem, start, e, n)
  {
    var last := start + (n - 1) * e;
    var p := start;
    ghost var k: nat := 0;
    m := mem;
    while p < last
      invariant k <= n - 1 && p == start + k * e
      invariant m == ThreadLinks(mem, start, e, k)
      decreases last - p
    {
      m := m[p := p + e];
      p := p + e;
      k := k + 1;
    }
    if k < n - 1 {
      MulStrictMono(k, n - 1, e);
    }
    m := m[last := Null];
    PlainLinksChain(mem, start, e, n);
    forall a | a !in Blocks(start, e, n)
      ensures Read(m, a) == Read(mem, a)
    {
      PlainLinksFrame(mem, start, e, n, a);
    }
  }

  /** `steps` consecutive executions of the statement
      `p->next_ = p + elsize_; p += elsize_;` starting at block `k`. */
  method LinkSteps(ghost mem: Mem, ghost start: Addr, e: nat, m0: Mem, p0: Addr, ghost k: nat, steps: nat)
    returns (m: Mem, p: Addr)
    requires p0 == start + k * e && m0 == ThreadLinks(mem, start, e, k)
    ensures p == start + (k + steps) * e
    ensures m == ThreadLinks(mem, start, e, k + steps)
  {
    m, p := m0, p0;
    var done := 0;
    while done < steps
      invariant done <= steps
      invariant p == start + (k + done) * e
      invariant m == ThreadLinks(mem, start, e, k + done)
    {
      m := m[p := p + e];
      p := p + e;
      done := done + 1;
    }
  }

  /** The statements the switch and the do-while execute add up to
      `count = nof_elmts_ - 1` whenever `count` is positive. */
  lemma DuffPasses(count: nat)
    requires count >= 1
    ensures (if count % 8 == 0 then 8 else count % 8) + 8 * ((count + 7) / 8 - 1) == count
    ensures (count + 7) / 8 >= 1
  {
    assert count == 8 * (count / 8) + count % 8;
  }

  /** The `do ... while` counter `(count + 7) / 8` and the `switch` label
      `count % 8` of the unrolled loop. */
  method DuffSplit(count: nat) returns (rounds: nat, entry: nat)
    ensures entry < 8
    ensures count == 0 ==> rounds == 0 && entry == 0
    ensures count >= 1 ==> rounds >= 1 && (if entry == 0 then 8 else entry) + 8 * (rounds - 1) == count
  {
    rounds := (count + 7) / 8;
    entry := count % 8;
    if count >= 1 {
      DuffPasses(count);
    }
  }

  /** The unrolled loop compiled into the source (fb_alloc.h:261-285): with
      `count = nof_elmts_ - 1`, the `switch` enters the first pass of the
      eight-fold body at `case count % 8` (a whole pass for `case 0`), and
      the `do ... while (--nn > 0)` adds a full pass while `nn`, initially
      `(count + 7) / 8`, stays positive after its decrement. For two or more
      blocks it writes the same links as the plain loop. For one block it
      still runs a whole pass: it writes the links of a chunk of nine
      blocks, the second of which lands on the chunk's trailing registry
      word at offset `1 * e`. */
  method LinkChunkUnrolled(mem: Mem, start: Addr, e: nat, n: nat) returns (m: Mem)
    requires start > 0 && e > 0 && n >= 1
    ensures n >= 2 ==> m == PlainLinks(mem, start, e, n)
    ensures n == 1 ==> m == PlainLinks(mem, start, e, n + 8)
    ensures n == 1 ==> Read(m, start + e) == start + 2 * e
  {
    var count := n - 1;
    var rounds, entry := DuffSplit(count);
    var first := if entry == 0 then 8 else entry;
    var p: Addr;
    // the first, possibly partial, pass of the do-while body
    m, p := LinkSteps(mem, start, e, mem, start, 0, first);
    ghost var linked: nat;
    m, p, linked := LinkRounds(mem, start, e, m, p, first, rounds as int - 1);
    assert n >= 2 ==> linked == n - 1;
    assert n == 1 ==> linked == 8;
    m := m[p := Null];
    if n >= 2 {
      ClosingLink(mem, start, e, n, linked, p);
    } else {
      ClosingLink(mem, start, e, n + 8, linked, p);
      SingleBlockTrailer(mem, start, e, linked);
    }
  }

  /** The further passes of the `do ... while (--nn > 0)`, eight statements
      each, with `nn` already decremented once after the first pass. */
  method LinkRounds(ghost mem: Mem, ghost start: Addr, e: nat, m0: Mem, p0: Addr, ghost k0: nat, nn0: int)
    returns (m: Mem, p: Addr, ghost k: nat)
    requires p0 == start + k0 * e && m0 == ThreadLinks(mem, start, e, k0)
    ensures k == if nn0 > 0 then k0 + 8 * nn0 else k0
    ensures p == start + k * e && m == ThreadLinks(mem, start, e, k)
  {
    m, p := m0, p0;
    var nn := nn0;
    k := k0;
    while nn > 0
      invariant p == start + k * e
      invariant m == ThreadLinks(mem, start, e, k)
      invariant nn0 > 0 ==> nn >= 0 && k + 8 * nn == k0 + 8 * nn0
      invariant nn0 <= 0 ==> nn == nn0 && k == k0
    {
      m, p := LinkSteps(mem, start, e, m, p, k, 8);
      k := k + 8;
      nn := nn - 1;
    }
  }

  /** Nulling the link of block `n - 1` after threading the blocks before
      it completes the plain loop. */
  lemma ClosingLink(mem: Mem, start: Addr, e: nat, n: nat, k: nat, p: Addr)
    requires n >= 1 && k == n - 1 && p == start + k * e
    ensures ThreadLinks(mem, start, e, k)[p := Null] == PlainLinks(mem, start, e, n)
  {
  }

  /** Threading `k >= 2` blocks from `start` leaves the second link, to the
      third block, in the word right after the first block; a one-block
      chunk keeps its registry link there. */
  lemma SingleBlockTrailer(mem: Mem, start: Addr, e: nat, k: nat)
    requires e > 0 && k >= 2
    ensures Read(ThreadLinks(mem, start, e, k)[start + k * e := Null], start + e) == start + 2 * e
  {
    ThreadLinksLinked(mem, start, e, k, 1);
    MulStrictMono(1, k, e);
  }
}

=== FILE: wrappers.dfy ===
/** Option and Result datatypes used to model null pointers and the ways an
    operation of the allocator can stop short of its normal result. */
module Wrappers {

  /** A nullable value: `None` stands for a null pointer. */
  datatype Option<+T> = None | Some(value: T)

  /** How an operation fails.
      - BadAlloc: `std::bad_alloc` (the heap refused a request, or `grow`
        found no counters);
      - AssertionFailure: a debug-build `assert` of the allocator fails;
      - Undefined: the operation dereferences a null or deleted counter. */
  datatype Fault = BadAlloc | AssertionFailure | Undefined

  /** The outcome of an operation that may fail. */
  datatype Result<+T> = Ok(value: T) | Err(fault: Fault) {
    predicate IsFailure() {
      Err?
    }
  }
}
